=== FILE: README.md ===
# go-virtualbox machine operations in Dafny

A model of the `machine` type of the go-virtualbox package (`machine.go`). The package
drives VirtualBox through its command-line tool VBoxManage. A machine record holds
what VBoxManage last reported: name, UUID, state, CPUs, memory, video memory, config
file, base folder, OS type, feature flags and boot order.

The model covers:

- the lifecycle operations `Start`, `Save`, `Pause`, `Stop`, `Poweroff`, `Restart`,
  `Reset` and `Delete`;
- `Refresh` and the `showvminfo --machinereadable` parser `getMachine`;
- `listMachines` and `createMachine`;
- the argument lists of `Modify`, `SetNIC`, `AddStorageCtl`, `DelStorageCtl`,
  `AttachStorage`, `AddNATPF` and `DelNATPF`;
- the feature flags with `Flag.Get` and `bool2string`.

Running VBoxManage becomes two parameters:

- an executor `vbm: Args -> Outcome` answers every command that only succeeds or fails;
- the queries (`showvminfo`, `list vms`) read their answers in order from a finite
  sequence of replies.

Every operation returns the commands it issued (its trace) and its outcome. Operations
that may refresh also return the record afterwards and the replies still unread.

Two facts hold by construction:

- Operations that never refresh return a `Step`, which holds no record. So only
  `Refresh` (and `Stop`, `Restart` and `Modify` through it) changes the record, as in
  the Go package.
- The state-changing operations decide on the record's stored state, never on the
  machine's real one.

`Start`, `Save`, `Pause`, `Poweroff`, `Reset` and `Delete`, and the two restarts, are
checked against a state table, `Lifecycle.After`. It says which state each VBoxManage
command leaves a machine in, and where a command does not apply. `Lifecycle.Effects`
runs a whole trace through that table. `Stop` is checked against the refreshed record
instead: its loop ends only when a refresh reads poweroff.

Files:

- `base.dfy`: argument lists, `Option`, `Result`, errors and outcomes.
- `decimal.dfy`: `%d` formatting and `strconv.ParseUint(s, 10, 32)`.
- `flags.dfy`: the feature flags, `bool2string` and `Flag.Get`.
- `paths.dfy`: `filepath.Dir`.
- `options.dfy`: option lists as VBoxManage reads them, where the last occurrence of a
  key wins.
- `commands.dfy`: the commands, the executor and traces.
- `machine.dfy`: the record, the parser and `Refresh`.
- `lifecycle.dfy`: the lifecycle operations and the state table.
- `create.dfy`: `listMachines` and `createMachine`.
- `settings.dfy`: `Modify`.
- `peripherals.dfy`: the NIC, storage and NAT operations.

## Model

| member | source | states |
|---|---|---|
| Flags.OnOff | machine.go:43-49 | The token is "on" exactly when the switch is true, and "off" otherwise. |
| Flags.Get | machine.go:51-54 | The result is "on" exactly when `f & o == o`, and "off" otherwise. |
| Flags.FeaturesAreSuccessiveBits | machine.go:22-41 | The fifteen features are the bits 0 to 14, in declaration order (`1 << iota`). |
| Flags.GetSingleBit | machine.go:51-54 | For a single-bit flag, Get is "on" exactly when the machine's flag holds that bit. |
| Flags.EveryBitMakesOn | machine.go:51-54 | If every bit of o is set in f, then `f & o == o`. |
| Flags.GetOnIffEveryBit | machine.go:51-54 | Get is "on" exactly when every bit set in o is also set in f. This is a bit-by-bit reading of `f&o == o`, in both directions. |
| Decimal.FormatNat | machine.go:313-315 | `%d` of an unsigned value is the shortest digit string denoting it: no leading zero, and "0" for zero. |
| Decimal.FormatInt | machine.go:395-397 | `%d` of a signed value is a minus sign followed by the magnitude's digits for a negative value, and the plain digits otherwise. |
| Decimal.AccumulateMeaning | machine.go:216-219 | The left-to-right scan succeeds exactly on digits whose value fits 32 bits, and yields that value. Otherwise it fails with a syntax or range error; an overflowing digit string gives the range error. |
| Decimal.ParseUint32Meaning | machine.go:216-219 | `ParseUint(s, 10, 32)` accepts exactly the non-empty digit strings whose value is at most 2^32-1, and returns that value. An empty or non-digit string is a syntax error; too large a value is a range error. |
| Decimal.ParseFormatRoundTrip | machine.go:313-315 | Parsing the printed number gives it back when it fits 32 bits, and a range error when it does not. |
| Decimal.ReadFormatInt | machine.go:395-397 | A signed number printed with `%d` reads back as itself. |
| Paths.Dir | machine.go:233-235 | A path without a slash has directory ".". Otherwise the directory is a prefix of the path, and it is "/" or does not end in a slash. |
| Paths.DirOfJoin | machine.go:233-235 | The base folder of `d/f`, for a file name f, is d. |
| Paths.DirOfRootFile | machine.go:233-235 | The base folder of a file directly under the root is "/". |
| Commands.Then | machine.go:100-106 | An error from the first step is returned and nothing after it is issued. Otherwise the traces concatenate and the second step's outcome is returned. |
| Commands.Execute | machine.go:99-106 | A chain of commands succeeds exactly when every command succeeds. A failure stops at the first failing command and returns its error; every earlier command succeeded. |
| Machines.StateOf | machine.go:213-214 | `MachineState(val)` is the state whose text is val. |
| Machines.StateTextRoundTrip | machine.go:12-20 | A state and its text determine each other. |
| Machines.Assign | machine.go:208-236 | An unknown key leaves the record as it is. A line fails exactly when its key is memory, cpus or vram and its value does not parse, and then it fails with the parser's error. |
| Machines.OverlaySnoc | machine.go:208-236 | Assigning one more key/value pair gives the field-by-field overlay of all the pairs, in which the last pair naming a field sets it. |
| Machines.ParseFromMeaning | machine.go:192-241 | The parse loop succeeds exactly when no matched line carries a bad number. It then yields the overlay of all matched pairs; otherwise it fails with the error of the first bad number. |
| Machines.GetMachine | machine.go:184-191 | A failed query is an error: "machine does not exist" exactly when stderr matches the not-found pattern, and the tool's own failure otherwise. |
| Machines.GetMachineMeaning | machine.go:183-242 | On output, parsing succeeds exactly when no bad number occurs, and yields the overlay on the zero record. The OS type, flag and boot order are never set. |
| Machines.GetMachineReadsStandardReply | machine.go:194-241 | The seven lines the parser recognises (name, UUID, VMState, memory, cpus, vram, CfgFile) give exactly those fields when the numbers are valid. The base folder becomes the directory of the config file. Every other field stays at its zero value. |
| Machines.Refresh | machine.go:71-83 | Refresh queries the name, or the UUID when the name is empty. On success the record is replaced by the machine read. On failure the record is kept, and the error is the one `getMachine` gives for the reply (for instance "machine does not exist"), or "no reply" when the replies ran out. |
| Lifecycle.Start | machine.go:85-94 | A paused machine is resumed; a stopped, saved or aborted one is started headless; any other state issues nothing. A successful start leaves a known state running in the state table. |
| Lifecycle.Save | machine.go:96-107 | An idle machine is left alone. A paused one is resumed, then saved, and a failed resume skips the save. A successful save leaves a running or paused machine saved. |
| Lifecycle.Pause | machine.go:109-116 | Only a running (or unrecognised) machine is paused. On success a running machine ends paused and any other known state is unchanged. |
| Lifecycle.Poweroff | machine.go:141-148 | An idle machine is left alone; any other is powered off. On success a known state ends idle. |
| Lifecycle.Reset | machine.go:164-173 | A paused or saved machine is started first; then the machine is reset. On success a running, paused or saved machine ends running. |
| Lifecycle.Delete | machine.go:175-181 | Delete powers off if needed, then unregisters and deletes. A failed power-off skips the unregister. On success every command applied in the state table. |
| Lifecycle.StopLoop | machine.go:129-137 | The loop ends successfully only once the record says poweroff. It does nothing when the record already says so, and it consumes replies from the front. |
| Lifecycle.StopLoopShape | machine.go:129-137 | Presses and refreshes alternate, and every press before the last command succeeded. A successful loop ends after a refresh; one that ends on a press fails with that press's error. One that ends on its k-th refresh fails with the error the k-th reply reads as, or with "no reply" when the replies ran out. |
| Lifecycle.StopLoopPresses | machine.go:129-137 | If the n-th refresh is the first to report poweroff, the loop presses exactly n times in 2n commands. It succeeds with the record the n-th reply describes and leaves the later replies. |
| Lifecycle.StopLoopSucceedsIff | machine.go:129-137 | When presses succeed, the loop succeeds exactly when some refresh reports poweroff before a refresh fails. |
| Lifecycle.StopLoopStartsWithPress | machine.go:129-130 | From any state but poweroff, the loop's first command is a power-button press. |
| Lifecycle.Stop | machine.go:118-139 | An idle machine is left alone; a paused one is resumed first, and a failed resume ends Stop. A successful stop of a machine that is not saved or aborted leaves the record saying poweroff. |
| Lifecycle.StopPresses | machine.go:118-139 | From running, or from paused with a successful resume, Stop presses n times when the n-th refresh reports poweroff, and succeeds. |
| Lifecycle.Restart | machine.go:150-162 | A successful restart ends with a headless start. A failed first start (from paused or saved) is returned at once, with nothing issued after it. A failed `Stop` is returned after the first start's commands. Otherwise the result is the first start, `Stop`, then `Start` on the record `Stop` left, with that start's outcome. |
| Lifecycle.RestartFromSavedStartsTwice | machine.go:150-162 | As written, a saved machine is started twice and never stopped; the state table rejects the second start. |
| Lifecycle.RestartFromPausedResumesTwice | machine.go:150-162 | As written, a paused machine is resumed twice; the state table rejects the second resume. |
| Lifecycle.RestartAgreesOutsidePausedSaved | machine.go:150-162 | From any state but paused or saved, Go's `Restart` is exactly the corrected one. |
| Lifecycle.RestartFromStopped | machine.go:150-162 | A powered-off or aborted machine is only started headless, and Restart returns that start's result. |
| Lifecycle.RestartIntended | machine.go:150-162 | With the corrected state, a successful restart ends with a headless start. |
| Lifecycle.RestartIntendedStopsFirst | machine.go:150-162 | With the corrected state, restart presses n times when the n-th refresh reports poweroff, then starts the machine. The final outcome is that start's outcome. |
| Lifecycle.RestartIntendedPressesRunning | machine.go:150-162 | With the corrected state, every command up to the first press applies in the state table and leaves the machine running. |
| Creation.ListedNames | machine.go:252-256 | Every name a matching line captures is listed, and every listed name was captured by some line. One line gives its own name or nothing. |
| Creation.ListedNamesAppend | machine.go:252-262 | Names are collected line by line in order: the names of `a + b` are those of `a` followed by those of `b`. So there is one entry per matching line, and nothing is sorted or deduplicated. |
| Creation.FetchAll | machine.go:252-262 | One `showvminfo` per listed name, in order. Success reads one machine per name from consecutive replies. |
| Creation.FetchAllSucceedsIff | machine.go:252-262 | Fetching succeeds exactly when the next replies all describe machines. A failure is the error of the first bad reply, or "no reply" when the replies run out. |
| Creation.ListMachines | machine.go:245-249 | `list vms` comes first. Its failure is the tool's error, and its output drives the fetch loop. |
| Creation.ListMachinesMeaning | machine.go:244-267 | The listing succeeds exactly when every listed machine reads back. It then yields one machine per name, each read from the reply to its own query. |
| Creation.ListingOnlyQueries | machine.go:244-267 | Listing issues only `list vms` and `showvminfo` queries. |
| Creation.CreateArgs | machine.go:287-290 | The `createvm` arguments are name plus register, with `--basefolder` appended only when a base folder is given. |
| Creation.CreateMachine | machine.go:270-300 | An empty name is refused before any command. Otherwise the listing comes first, and a listing error is returned as is. A taken name gives "machine exists". A free name issues `createvm` right after the listing. A failing `createvm` is returned as the error. A passing one is followed by `showvminfo` of the name, whose result is returned, error or not. |
| Creation.CreateIssuesIff | machine.go:270-292 | `createvm` is issued exactly when the name is non-empty, the listing succeeded and no listed machine has the name. |
| Creation.CreateRefusesTakenName | machine.go:280-284 | A name some listed machine has is refused as "machine exists", and `createvm` is never issued. |
| Creation.CreateSucceeds | machine.go:286-300 | Success means: the name is non-empty and free; `createvm` passed; and the machine was read back from the next reply. |
| Settings.FeatureOptions | machine.go:317-331 | One on/off option per feature, in table order, each being Get of that feature's bit. |
| Settings.BootOptions | machine.go:334-339 | Only the first four boot devices become `--boot1`..`--boot4`, in order. |
| Settings.KeptBoot | machine.go:334-337 | The kept boot order is a prefix of at most four devices, and the whole order when it has four or fewer. |
| Settings.ModifyArgs | machine.go:305-339 | `modifyvm` and the name, then every option with its value. There are 50 arguments plus two per kept boot device. |
| Settings.ModifyArgsBios | machine.go:305-310 | The five fixed BIOS settings come first. |
| Settings.ModifyArgsNumbers | machine.go:312-315 | Then the OS type and the CPU, memory and VRAM numbers in decimal. |
| Settings.ModifyArgsFeatures | machine.go:317-331 | Then `--<feature>` with its on/off token, for every feature. |
| Settings.ModifyArgsBoot | machine.go:334-339 | Then `--boot<j+1>` with the j-th device. |
| Settings.Modify | machine.go:340-343 | A failed `modifyvm` leaves the record and issues nothing more; a successful one is followed by a refresh, whose failure is the error `getMachine` gives for the reply. |
| Settings.BootsReadBack | machine.go:334-339 | Reading the boot slots back from the options gives the kept boot order. |
| Settings.BootsFromSlots | machine.go:334-339 | For any option list whose boot slots hold the devices of a list of at most four, reading the slots back from slot j gives those devices from position j - 1 on, in order. |
| Settings.FeatureReadBack | machine.go:317-331 | A feature's option reads "on" exactly when the flag holds that feature's bit. |
| Settings.ModifyReadBack | machine.go:305-339 | Round trip: reading the written options back recovers the OS type, the three numbers (when they fit 32 bits), the set of features and the kept boot order. |
| Settings.ModifyForgetsSettings | machine.go:340-343 | After a successful Modify the record is whatever the refresh read, so the OS type, flag and boot order are cleared. |
| Peripherals.SetNicArgs | machine.go:359-367 | `modifyvm` and the name, then 6 option arguments, plus 2 for the host-only adapter. Each option's word is followed by its value, in the order the options are written. |
| Peripherals.SetNicArgsWords | machine.go:359-367 | The exact words: `--nic<n>` and the mode, `--nictype<n>` and the hardware, `--cableconnected<n>` and `on`. Host-only mode adds `--hostonlyadapter<n>` and the adapter. |
| Peripherals.SetNic | machine.go:358-369 | One `modifyvm` whose result is the operation's result; the record is not touched. |
| Peripherals.SetNicReadBack | machine.go:359-367 | Mode, NIC type and cable ("on") read back. A host-only adapter is present exactly when the mode is host-only. |
| Peripherals.NicSpellingNumbered | machine.go:360-366 | Every NIC option is spelt with the card's number at its end. |
| Peripherals.AddStorageCtlArgs | machine.go:373-384 | The argument count grows by two for each of bus, positive port count and chipset that is set. Each option's word is followed by its value, in order. |
| Peripherals.AddStorageCtlArgsWords | machine.go:373-384 | The exact words: `--name`, then `--add`, `--portcount` and `--controller` only when set, then `--hostiocache` and `--bootable` as on/off. |
| Peripherals.AddStorageCtl | machine.go:372-386 | One `storagectl` whose result is the operation's result. |
| Peripherals.StorageCtlLookup | machine.go:373-384 | Every option looks up to the value written for it, and an option left out is absent. |
| Peripherals.StorageCtlReadBack | machine.go:373-384 | Round trip: name and controller read back, except that a port count that is not positive reads back as zero. |
| Peripherals.DelStorageCtlArgs | machine.go:389-391 | `storagectl`, the machine, the `--name` option and `--remove`. |
| Peripherals.DelStorageCtl | machine.go:388-391 | One `storagectl --remove` whose result is the operation's result. |
| Peripherals.DelStorageCtlMatchesAdd | machine.go:372-391 | Removal addresses the controller by the same `--name` option that added it. |
| Peripherals.AttachStorageArgs | machine.go:394-401 | `storageattach` and the name, then ten option arguments. Each of the five option words is followed by its value. |
| Peripherals.AttachStorageArgsWords | machine.go:394-401 | The exact words: `--storagectl`, `--port`, `--device`, `--type` and `--medium`, each followed by its value; port and device are in decimal. |
| Peripherals.AttachStorage | machine.go:393-401 | One `storageattach` whose result is the operation's result. |
| Peripherals.AttachReadBack | machine.go:395-400 | Round trip: the controller name, port, device, drive type and medium read back. |
| Peripherals.NatPfWord | machine.go:348 | The word is "natpf" followed by the card number, which reads back as that number. |
| Peripherals.AddNatPfArgs | machine.go:347-350 | `controlvm`, the machine, the natpf word, then one argument: the rule name, a comma and the rule text. |
| Peripherals.AddNatPf | machine.go:346-350 | One `controlvm` whose result is the operation's result. |
| Peripherals.NatPfRuleReadBack | machine.go:348-349 | Round trip: a rule name without a comma is recovered from the rule argument, together with the rule text. |
| Peripherals.DelNatPfArgs | machine.go:353-355 | `controlvm`, the machine, the natpf word, `delete` and the name. |
| Peripherals.DelNatPf | machine.go:352-355 | One `controlvm` whose result is the operation's result. |
| Peripherals.DelNatPfMatchesAdd | machine.go:346-355 | Delete addresses the same card as add, and names the rule by the name add wrote before its comma. |

## Left out

- Running VBoxManage, capturing its output, and `vbmOut`/`vbmOutErr` are parameters: an executor for commands and a sequence of replies for queries.
- A failing `list vms` is modelled as the tool's own error. `vbmOut`'s error mapping is not part of this model.
- Executor: the executor's answer is a fixed function of the argument list. It does not depend on earlier commands or on the machine's real state. So the model cannot express a command that passes once and fails the next time with the same arguments. In particular, in `Restart` from saved, the second `startvm` gets the same answer as the first, which is a pass.
- `time.Sleep` in `Stop`'s loop is not modelled.
- The replies bound `Stop`'s polling loop. When they run out the loop ends with a "no reply" error, where Go's `Stop` would keep polling.
- The regular expressions `reVMInfoLine`, `reVMNameUUID` and `reMachineNotFound` are not modelled. A line arrives already matched (or not), with the groups captured, and a failed reply says whether its stderr matched the not-found pattern.
- The scanner's own errors (`s.Err()`) are not modelled. `bufio.Scanner` stops with `ErrTooLong` on a line longer than 64 KiB, and then `getMachine` (machine.go:238-240) and `listMachines` (machine.go:263-265) return that error. In the model, output arrives as already-split lines, and over-long lines are not represented.
- `PFRule.Format` is not modelled. `AddNATPF` takes the formatted rule text as a parameter.
- The `NIC`, `StorageController` and `StorageMedium` types are modelled only through the fields these operations read. Network, hardware, bus, chipset and drive type are plain strings.
- Paths.Dir: no `.`/`..` clean-up and no Windows separators. It finds the last slash and drops trailing slashes. Repeated slashes inside the directory are kept: `Dir("a//b//c")` is `"a//b"` here, where `filepath.Dir` gives `"a/b"`.
- Go's `uint` record fields are unbounded naturals. `%d` of a value at or above 2^32 is printed in full, and `ParseFormatRoundTrip` shows such a value reads back as a range error.
- The getters and setters of `machine` are not modelled. They read or write one field each.
- The `Machine` interface, the mock machine and the tests are not modelled.
- The MachineNotExist error of `getMachine` and the "machine name is empty" error are named variants of `Error`, not Go error values.

## Findings

| source | as written | input that shows it | evidently intended | confidence | as-written member | corrected member |
|---|---|---|---|---|---|---|
| machine.go:150-162 | `Restart` starts a paused or saved machine, then calls `Stop` and `Start` on the same record. Nothing updated the record's state in between. | A saved machine whose `startvm` succeeds: `Stop` sees "saved" and does nothing, and `Start` issues `startvm` a second time. The machine is never stopped. A paused machine is resumed twice. | Once the first `Start` succeeds the machine is running, so `Stop` presses the power button until a refresh reports poweroff, and `Start` then powers it on. | not executed | Lifecycle.Restart (shown by Lifecycle.RestartFromSavedStartsTwice, Lifecycle.RestartFromPausedResumesTwice) | Lifecycle.RestartIntended (proved by Lifecycle.RestartIntendedStopsFirst, Lifecycle.RestartIntendedPressesRunning) |

=== FILE: base.dfy ===
/** Shared vocabulary: argument lists, optional values, results and the error kinds
    the machine operations return. */
module Base {

  /** The argument list handed to VBoxManage, command word first. */
  type Args = seq<string>

  datatype Option<+T> = None | Some(value: T) {
    function GetOr(default: T): T {
      match this
      case Some(v) => v
      case None => default
    }
  }

  /** The errors the package returns. */
  datatype Error =
    | EmptyName                    // createMachine: "machine name is empty"
    | MachineExist                 // ErrMachineExist: the name is already registered
    | MachineNotExist              // ErrMachineNotExist: VBoxManage reported an unknown machine
    | ToolFailure(message: string) // any other failure of a VBoxManage invocation, passed on verbatim
    | NumSyntax(text: string)      // strconv.ParseUint: the text is not a decimal number
    | NumRange(text: string)       // strconv.ParseUint: the number does not fit in 32 bits
    | NoReply                      // the reply oracle has no answer left for a query

  datatype Result<+T> = Ok(value: T) | Err(error: Error) {
    predicate IsFailure() { Err? }
    function PropagateFailure<U>(): Result<U> requires Err? { Err(error) }
    function Extract(): T requires Ok? { value }
  }

  /** The result of an operation that returns only an error (Go's `error`, nil when Pass). */
  datatype Outcome = Pass | Fail(error: Error)
}

=== FILE: commands.dfy ===
/** The VBoxManage invocations the machine operations issue, the executor that answers
    them, and the trace an operation leaves. */
module Commands {
  import opened Base

  /** The `controlvm` actions. */
  datatype Action = Resume | SaveState | PauseVm | AcpiPowerButton | PowerOffVm | ResetVm

  datatype Command =
    | Control(vm: string, action: Action)   // controlvm <vm> <action>
    | StartHeadless(vm: string)             // startvm <vm> --type headless
    | Unregister(vm: string)                // unregistervm <vm> --delete
    | ShowInfo(id: string)                  // showvminfo <id> --machinereadable
    | ListVms                               // list vms
    | Invoke(args: Args)                    // an argument list built by a configuration operation

  function ActionWord(a: Action): string
  {
    match a
    case Resume => "resume"
    case SaveState => "savestate"
    case PauseVm => "pause"
    case AcpiPowerButton => "acpipowerbutton"
    case PowerOffVm => "poweroff"
    case ResetVm => "reset"
  }

  /** The argument list VBoxManage receives for a command. */
  function Argv(c: Command): Args
  {
    match c
    case Control(vm, a) => ["controlvm", vm, ActionWord(a)]
    case StartHeadless(vm) => ["startvm", vm, "--type", "headless"]
    case Unregister(vm) => ["unregistervm", vm, "--delete"]
    case ShowInfo(id) => ["showvminfo", id, "--machinereadable"]
    case ListVms => ["list", "vms"]
    case Invoke(args) => args
  }

  /** `vbm`: runs VBoxManage with an argument list and reports success or the error. */
  type Executor = Args -> Outcome

  /** The commands an operation issued, in order, and what it returned. */
  datatype Step = Step(trace: seq<Command>, outcome: Outcome)

  const Nothing: Step := Step([], Pass)

  /** Issues one command through the executor. */
  function Issue(vbm: Executor, c: Command): (r: Step)
    ensures r.trace == [c] && r.outcome == vbm(Argv(c))
  {
    Step([c], vbm(Argv(c)))
  }

  /** `if err := first; err != nil { return err }; return next`. */
  function Then(first: Step, next: Step): (r: Step)
    ensures first.outcome.Fail? ==> r == first
    ensures first.outcome.Pass? ==> r.trace == first.trace + next.trace && r.outcome == next.outcome
  {
    if first.outcome.Fail? then first else Step(first.trace + next.trace, next.outcome)
  }

  /** Issues the commands in order and stops at the first one that fails, returning its
      error (a chain of `if err := vbm(...); err != nil { return err }`). */
  function Execute(vbm: Executor, cmds: seq<Command>): (r: Step)
    ensures r.trace <= cmds
    ensures r.outcome.Pass? <==> forall i :: 0 <= i < |cmds| ==> vbm(Argv(cmds[i])) == Pass
    ensures r.outcome.Pass? ==> r.trace == cmds
    ensures r.outcome.Fail? ==>
              |r.trace| >= 1 && r.outcome == vbm(Argv(r.trace[|r.trace| - 1]))
              && forall i :: 0 <= i < |r.trace| - 1 ==> vbm(Argv(r.trace[i])) == Pass
  {
    if |cmds| == 0 then Nothing
    else
      var r := Then(Issue(vbm, cmds[0]), Execute(vbm, cmds[1..]));
      assert forall i :: 1 <= i < |cmds| ==> cmds[i] == cmds[1..][i - 1];
      r
  }

  predicate IsPress(c: Command) { c.Control? && c.action == AcpiPowerButton }

  /** How many ACPI power-button presses a trace holds. */
  function Presses(trace: seq<Command>): (n: nat)
    ensures n <= |trace|
    ensures n == 0 <==> forall i :: 0 <= i < |trace| ==> !IsPress(trace[i])
    ensures n == |trace| <==> forall i :: 0 <= i < |trace| ==> IsPress(trace[i])
  {
    if |trace| == 0 then 0
    else
      var rest := Presses(trace[1..]);
      assert forall i :: 1 <= i < |trace| ==> trace[i] == trace[1..][i - 1];
      (if IsPress(trace[0]) then 1 else 0) + rest
  }

  lemma {:induction false} PressesAppend(a: seq<Command>, b: seq<Command>)
    ensures Presses(a + b) == Presses(a) + Presses(b)
    decreases |a|
  {
    if |a| == 0 {
      assert a + b == b;
    } else {
      assert (a + b)[1..] == a[1..] + b;
      PressesAppend(a[1..], b);
    }
  }
}

=== FILE: create.dfy ===
/** `listMachines` and `createMachine`: listing the registered machines and creating a
    new one under a name no listed machine has. */
module Creation {
  import opened Base
  import opened Commands
  import opened Machines

  /** The names (or UUIDs) the lines of a `list vms` reply give, in order; lines that do
      not match `reVMNameUUID` are skipped. */
  function ListedNames(lines: seq<Line>): (names: seq<string>)
    ensures |names| <= |lines|
    ensures forall i :: 0 <= i < |lines| && lines[i].listed.Some? ==> lines[i].listed.value in names
    ensures forall n :: n in names ==> exists i :: 0 <= i < |lines| && lines[i].listed == Some(n)
    ensures |lines| == 1 ==> names == if lines[0].listed.Some? then [lines[0].listed.value] else []
  {
    if |lines| == 0 then []
    else
      var rest := ListedNames(lines[1..]);
      assert forall i :: 1 <= i < |lines| ==> lines[i] == lines[1..][i - 1];
      (if lines[0].listed.Some? then [lines[0].listed.value] else []) + rest
  }

  /** Names are collected line by line, in order: the names of two pieces of output are
      the names of the first followed by the names of the second. */
  lemma {:induction false} ListedNamesAppend(a: seq<Line>, b: seq<Line>)
    ensures ListedNames(a + b) == ListedNames(a) + ListedNames(b)
    decreases |a|
  {
    if |a| == 0 {
      assert a + b == b;
    } else {
      assert (a + b)[1..] == a[1..] + b;
      ListedNamesAppend(a[1..], b);
    }
  }

  /** The commands a listing issued, the machines it found or its error, and the
      replies it left unread. */
  datatype Listing = Listing(trace: seq<Command>, result: Result<seq<Machine>>, replies: seq<Reply>)

  /** The first n replies each describe a machine. */
  predicate AllRead(replies: seq<Reply>, n: nat)
  {
    |replies| >= n && forall i :: 0 <= i < n ==> GetMachine(replies[i]).Ok?
  }

  /** A listing that queried the names of ids in order, stopping early only on
      failure; a successful one read one machine per name from the next replies. */
  predicate FetchedAs(ids: seq<string>, replies: seq<Reply>, r: Listing)
  {
    && |r.trace| <= |ids|
    && (forall i :: 0 <= i < |r.trace| ==> r.trace[i] == ShowInfo(ids[i]))
    && (r.result.Ok? ==>
          && |r.result.value| == |ids| && |r.trace| == |ids| && |replies| >= |ids|
          && (forall i :: 0 <= i < |ids| ==> GetMachine(replies[i]) == Ok(r.result.value[i]))
          && r.replies == replies[|ids|..])
  }

  /** The listing of one more machine m, read first, in front of rest. */
  function Cons(id: string, m: Machine, rest: Listing): Listing
  {
    match rest.result
    case Err(e) => Listing([ShowInfo(id)] + rest.trace, Err(e), rest.replies)
    case Ok(ms) => Listing([ShowInfo(id)] + rest.trace, Ok([m] + ms), rest.replies)
  }

  lemma FetchedCons(ids: seq<string>, replies: seq<Reply>, m: Machine, rest: Listing)
    requires |ids| > 0 && |replies| > 0 && GetMachine(replies[0]) == Ok(m)
    requires FetchedAs(ids[1..], replies[1..], rest)
    ensures FetchedAs(ids, replies, Cons(ids[0], m, rest))
  {
    var r := Cons(ids[0], m, rest);
    assert forall i :: 1 <= i < |r.trace| ==> r.trace[i] == rest.trace[i - 1];
    assert forall i :: 1 <= i < |ids| ==> ids[i] == ids[1..][i - 1];
    if r.result.Ok? {
      assert forall i :: 1 <= i < |ids| ==> replies[i] == replies[1..][i - 1] && r.result.value[i] == rest.result.value[i - 1];
      assert replies[1..][|ids| - 1..] == replies[|ids|..];
    }
  }

  /** The loop of `listMachines`: one `getMachine` query per listed name, stopping at the
      first that fails. */
  function FetchAll(ids: seq<string>, replies: seq<Reply>): (r: Listing)
    ensures FetchedAs(ids, replies, r)
  {
    if |ids| == 0 then Listing([], Ok([]), replies)
    else
      var a := Query(replies);
      match a.result
      case Err(e) => Listing([ShowInfo(ids[0])], Err(e), a.replies)
      case Ok(m) =>
        var rest := FetchAll(ids[1..], a.replies);
        FetchedCons(ids, replies, m, rest);
        Cons(ids[0], m, rest)
  }

  /** The loop succeeds exactly when the next replies describe one machine per name; a
      failure stops at the first reply that does not. */
  lemma {:induction false} FetchAllSucceedsIff(ids: seq<string>, replies: seq<Reply>)
    ensures FetchAll(ids, replies).result.Ok? <==> AllRead(replies, |ids|)
    ensures var r := FetchAll(ids, replies);
            r.result.Err? ==>
              && 1 <= |r.trace| && AllRead(replies, |r.trace| - 1)
              && (if |r.trace| - 1 < |replies| then GetMachine(replies[|r.trace| - 1]) == Err(r.result.error)
                  else r.result.error == NoReply)
    decreases |ids|
  {
    if |ids| > 0 && |replies| > 0 && GetMachine(replies[0]).Ok? {
      FetchAllSucceedsIff(ids[1..], replies[1..]);
      var rest := FetchAll(ids[1..], replies[1..]);
      var r := FetchAll(ids, replies);
      assert |r.trace| == 1 + |rest.trace|;
      assert forall i :: 1 <= i < |replies| ==> replies[i] == replies[1..][i - 1];
    }
  }

  /** `listMachines`: `list vms`, then the machines it names. The listing itself
      fails with the tool's message when VBoxManage does. */
  function ListMachines(replies: seq<Reply>): (r: Listing)
    ensures |r.trace| >= 1 && r.trace[0] == ListVms
    ensures |replies| == 0 ==> r == Listing([ListVms], Err(NoReply), replies)
    ensures |replies| > 0 && replies[0].Failed? ==> r == Listing([ListVms], Err(ToolFailure(replies[0].message)), replies[1..])
    ensures |replies| > 0 && replies[0].Output? ==>
              var ids := ListedNames(replies[0].stdout);
              r == Listing([ListVms] + FetchAll(ids, replies[1..]).trace, FetchAll(ids, replies[1..]).result,
                           FetchAll(ids, replies[1..]).replies)
  {
    if |replies| == 0 then Listing([ListVms], Err(NoReply), replies)
    else
      match replies[0]
      case Failed(_, message) => Listing([ListVms], Err(ToolFailure(message)), replies[1..])
      case Output(lines) =>
        var f := FetchAll(ListedNames(lines), replies[1..]);
        Listing([ListVms] + f.trace, f.result, f.replies)
  }

  /** The `createvm` argument list; `--basefolder` only when a base folder is given. */
  function CreateArgs(name: string, baseFolder: string): (args: Args)
    ensures |args| == if baseFolder == "" then 4 else 6
    ensures args[..4] == ["createvm", "--name", name, "--register"]
    ensures baseFolder != "" ==> args[4..] == ["--basefolder", baseFolder]
  {
    ["createvm", "--name", name, "--register"] + (if baseFolder == "" then [] else ["--basefolder", baseFolder])
  }

  /** What `createMachine` issued, the machine it created or its error, and the replies
      it left unread. */
  datatype Creation = Creation(trace: seq<Command>, result: Result<Machine>, replies: seq<Reply>)

  /** Some listed machine has this name. */
  predicate Taken(ms: seq<Machine>, name: string)
  {
    exists i :: 0 <= i < |ms| && ms[i].name == name
  }

  /** `createMachine`: refuses an empty name and a name some listed machine already
      has; otherwise creates and registers the machine, then reads it back. */
  function CreateMachine(vbm: Executor, name: string, baseFolder: string, replies: seq<Reply>): (r: Creation)
    ensures name == "" ==> r == Creation([], Err(EmptyName), replies)
    ensures name != "" ==> |r.trace| >= 1 && r.trace[0] == ListVms
    ensures name != "" && ListMachines(replies).result.Err? ==>
              r == Creation(ListMachines(replies).trace, Err(ListMachines(replies).result.error), ListMachines(replies).replies)
    ensures var l := ListMachines(replies);
            name != "" && l.result.Ok? && Taken(l.result.value, name) ==> r == Creation(l.trace, Err(MachineExist), l.replies)
    ensures var l := ListMachines(replies);
            var args := CreateArgs(name, baseFolder);
            name != "" && l.result.Ok? && !Taken(l.result.value, name) ==>
              && |r.trace| > |l.trace| && r.trace[..|l.trace|] == l.trace && r.trace[|l.trace|] == Invoke(args)
              && (vbm(args).Fail? ==> r == Creation(l.trace + [Invoke(args)], Err(vbm(args).error), l.replies))
              && (vbm(args).Pass? ==>
                    r == Creation(l.trace + [Invoke(args), ShowInfo(name)], Query(l.replies).result, Query(l.replies).replies))
  {
    if name == "" then Creation([], Err(EmptyName), replies)
    else
      var l := ListMachines(replies);
      match l.result
      case Err(e) => Creation(l.trace, Err(e), l.replies)
      case Ok(ms) =>
        if Taken(ms, name) then Creation(l.trace, Err(MachineExist), l.replies)
        else
          var c := Invoke(CreateArgs(name, baseFolder));
          if vbm(Argv(c)).Fail? then Creation(l.trace + [c], Err(vbm(Argv(c)).error), l.replies)
          else
            var a := Query(l.replies);
            Creation(l.trace + [c, ShowInfo(name)], a.result, a.replies)
  }

  /** A listing issues `list vms` and then only `showvminfo` queries. */
  lemma ListingOnlyQueries(replies: seq<Reply>)
    ensures var t := ListMachines(replies).trace;
            forall i :: 0 <= i < |t| ==> t[i] == ListVms || t[i].ShowInfo?
  {
    if |replies| > 0 && replies[0].Output? {
      var f := FetchAll(ListedNames(replies[0].stdout), replies[1..]);
      var t := ListMachines(replies).trace;
      assert forall i :: 1 <= i < |t| ==> t[i] == f.trace[i - 1];
    }
  }

  /** A name some listed machine already has is refused with MachineExist, and
      `createvm` is never issued. */
  lemma CreateRefusesTakenName(vbm: Executor, name: string, baseFolder: string, replies: seq<Reply>)
    requires name != "" && ListMachines(replies).result.Ok?
    requires Taken(ListMachines(replies).result.value, name)
    ensures var r := CreateMachine(vbm, name, baseFolder, replies);
            r.result == Err(MachineExist) && forall i :: 0 <= i < |r.trace| ==> !r.trace[i].Invoke?
  {
    ListingOnlyQueries(replies);
  }

  /** `createvm` is issued exactly when the name is non-empty, the listing succeeded and
      no listed machine has the name; it is then issued once, right after the listing. */
  lemma CreateIssuesIff(vbm: Executor, name: string, baseFolder: string, replies: seq<Reply>)
    ensures var r := CreateMachine(vbm, name, baseFolder, replies);
            var l := ListMachines(replies);
            (exists i :: 0 <= i < |r.trace| && r.trace[i] == Invoke(CreateArgs(name, baseFolder)))
              <==> name != "" && l.result.Ok? && !Taken(l.result.value, name)
  {
    var r := CreateMachine(vbm, name, baseFolder, replies);
    var l := ListMachines(replies);
    if name != "" {
      ListingOnlyQueries(replies);
      if l.result.Ok? && !Taken(l.result.value, name) {
        assert r.trace[|l.trace|] == Invoke(CreateArgs(name, baseFolder));
      } else {
        assert r.trace == l.trace;
      }
    }
  }

  /** A successful creation listed the machines, found none with the name, issued
      `createvm` with the name and base folder, and read the new machine back. */
  lemma CreateSucceeds(vbm: Executor, name: string, baseFolder: string, replies: seq<Reply>)
    requires CreateMachine(vbm, name, baseFolder, replies).result.Ok?
    ensures var r := CreateMachine(vbm, name, baseFolder, replies);
            var l := ListMachines(replies);
            && name != "" && l.result.Ok? && !Taken(l.result.value, name)
            && vbm(CreateArgs(name, baseFolder)) == Pass
            && r.trace == l.trace + [Invoke(CreateArgs(name, baseFolder)), ShowInfo(name)]
            && |l.replies| >= 1 && r.result == GetMachine(l.replies[0]) && r.replies == l.replies[1..]
  {
  }

  /** With every listed machine readable, the listing yields one machine per listed
      name, each read from the reply to its own query. */
  lemma ListMachinesMeaning(replies: seq<Reply>)
    requires |replies| > 0 && replies[0].Output?
    ensures var ids := ListedNames(replies[0].stdout);
            ListMachines(replies).result.Ok? <==> AllRead(replies[1..], |ids|)
    ensures var ids := ListedNames(replies[0].stdout);
            var r := ListMachines(replies);
            r.result.Ok? ==>
              && |r.result.value| == |ids|
              && r.trace == [ListVms] + seq(|ids|, i requires 0 <= i < |ids| => ShowInfo(ids[i]))
              && forall i :: 0 <= i < |ids| ==> r.result.value[i] == GetMachine(replies[1..][i]).value
  {
    var ids := ListedNames(replies[0].stdout);
    FetchAllSucceedsIff(ids, replies[1..]);
  }
}

=== FILE: decimal.dfy ===
/** Decimal text of unsigned numbers: Go's `fmt.Sprintf("%d", n)` and
    `strconv.ParseUint(s, 10, 32)`. */
module Decimal {
  import opened Base

  /** The largest value `strconv.ParseUint` accepts with a bit size of 32. */
  const MaxUint32: nat := 0xFFFF_FFFF

  predicate IsDigit(c: char) { '0' <= c <= '9' }

  predicate AllDigits(s: string) { forall i :: 0 <= i < |s| ==> IsDigit(s[i]) }

  function DigitOf(c: char): nat
    requires IsDigit(c)
  {
    c as nat - '0' as nat
  }

  function CharOf(d: nat): (c: char)
    requires d < 10
    ensures IsDigit(c) && DigitOf(c) == d
  {
    (d + '0' as nat) as char
  }

  function Pow10(k: nat): (p: nat)
    ensures p >= 1
  {
    if k == 0 then 1 else 10 * Pow10(k - 1)
  }

  /** The number a string of decimal digits denotes, most significant digit first. */
  function ValueOf(s: string): nat
    requires AllDigits(s)
  {
    if |s| == 0 then 0 else 10 * ValueOf(s[..|s| - 1]) + DigitOf(s[|s| - 1])
  }

  /** `fmt.Sprintf("%d", n)` for an unsigned value: the shortest digit string denoting n. */
  function FormatNat(n: nat): (s: string)
    ensures |s| >= 1 && AllDigits(s)
    ensures ValueOf(s) == n
    ensures n == 0 ==> s == "0"
    ensures n > 0 ==> s[0] != '0'
  {
    if n < 10 then [CharOf(n)]
    else
      var prefix := FormatNat(n / 10);
      var s := prefix + [CharOf(n % 10)];
      assert s[..|s| - 1] == prefix;
      s
  }

  /** `fmt.Sprintf("%d", i)` for a signed Go `int`. */
  function FormatInt(i: int): (s: string)
    ensures |s| >= 1
    ensures i >= 0 ==> s == FormatNat(i)
    ensures i < 0 ==> s[0] == '-' && s[1..] == FormatNat(-i)
  {
    if i < 0 then "-" + FormatNat(-i) else FormatNat(i)
  }

  /** `strconv.ParseUint(s, 10, 32)`: empty text is a syntax error; the digits are
      then read left to right, a non-digit being a syntax error and a running value
      above MaxUint32 a range error, whichever comes first. */
  function ParseUint32(s: string): Result<nat>
  {
    if |s| == 0 then Err(NumSyntax(s)) else Accumulate(s, s, 0)
  }

  function Accumulate(text: string, rest: string, acc: nat): Result<nat>
    decreases |rest|
  {
    if |rest| == 0 then Ok(acc)
    else if !IsDigit(rest[0]) then Err(NumSyntax(text))
    else if 10 * acc + DigitOf(rest[0]) > MaxUint32 then Err(NumRange(text))
    else Accumulate(text, rest[1..], 10 * acc + DigitOf(rest[0]))
  }

  /** Reading a digit string from the front agrees with reading it from the back. */
  lemma {:induction false} ValueOfFront(s: string)
    requires |s| >= 1 && AllDigits(s)
    ensures ValueOf(s) == DigitOf(s[0]) * Pow10(|s| - 1) + ValueOf(s[1..])
    decreases |s|
  {
    if |s| > 1 {
      var init := s[..|s| - 1];
      ValueOfFront(init);
      var d, p, v, last := DigitOf(s[0]), Pow10(|s| - 2), ValueOf(init[1..]), DigitOf(s[|s| - 1]);
      assert s[1..][..|s| - 2] == init[1..];
      assert ValueOf(s[1..]) == 10 * v + last;
      assert ValueOf(s) == 10 * (d * p + v) + last;
      assert Pow10(|s| - 1) == 10 * p;
      Shift(d, p, v, last);
    }
  }

  lemma Shift(d: nat, p: nat, v: nat, last: nat)
    ensures 10 * (d * p + v) + last == d * (10 * p) + (10 * v + last)
  {
  }

  /** The number denoted by the digits of `acc` followed by the digits `s`. */
  function Continued(acc: nat, s: string): nat
    requires AllDigits(s)
  {
    acc * Pow10(|s|) + ValueOf(s)
  }

  /** Moving the leading digit of `s` onto `acc` keeps the denoted number, which is
      never below `acc`. */
  lemma ContinuedStep(acc: nat, s: string)
    requires |s| >= 1 && AllDigits(s)
    ensures Continued(acc, s) == Continued(10 * acc + DigitOf(s[0]), s[1..])
    ensures Continued(acc, s) >= 10 * acc + DigitOf(s[0])
  {
    var d, p, v := DigitOf(s[0]), Pow10(|s| - 1), ValueOf(s[1..]);
    ValueOfFront(s);
    assert Pow10(|s|) == 10 * p;
    Regroup(acc, d, p, v);
  }

  lemma Regroup(acc: nat, d: nat, p: nat, v: nat)
    requires p >= 1
    ensures acc * (10 * p) + (d * p + v) == (10 * acc + d) * p + v
    ensures (10 * acc + d) * p + v >= 10 * acc + d
  {
    assert acc * (10 * p) == (10 * acc) * p;
    assert (10 * acc) * p + d * p == (10 * acc + d) * p;
  }

  lemma {:induction false} AccumulateMeaning(text: string, rest: string, acc: nat)
    requires acc <= MaxUint32
    ensures Accumulate(text, rest, acc).Ok? <==> AllDigits(rest) && Continued(acc, rest) <= MaxUint32
    ensures Accumulate(text, rest, acc).Ok? ==> Accumulate(text, rest, acc).value == Continued(acc, rest)
    ensures Accumulate(text, rest, acc).Err? ==>
              Accumulate(text, rest, acc).error in {NumSyntax(text), NumRange(text)}
    ensures AllDigits(rest) && Continued(acc, rest) > MaxUint32 ==>
              Accumulate(text, rest, acc) == Err(NumRange(text))
    decreases |rest|
  {
    if |rest| > 0 && IsDigit(rest[0]) {
      var next := 10 * acc + DigitOf(rest[0]);
      var tail := rest[1..];
      assert AllDigits(rest) <==> AllDigits(tail);
      if AllDigits(rest) {
        ContinuedStep(acc, rest);
      }
      if next <= MaxUint32 {
        AccumulateMeaning(text, tail, next);
      }
    }
  }

  /** ParseUint32 accepts exactly the non-empty digit strings denoting at most
      MaxUint32, yields the value they denote, and otherwise fails with an error
      that carries the text. */
  lemma ParseUint32Meaning(s: string)
    ensures ParseUint32(s).Ok? <==> |s| >= 1 && AllDigits(s) && ValueOf(s) <= MaxUint32
    ensures ParseUint32(s).Ok? ==> ParseUint32(s).value == ValueOf(s)
    ensures ParseUint32(s).Err? ==> ParseUint32(s).error in {NumSyntax(s), NumRange(s)}
    ensures |s| >= 1 && AllDigits(s) && ValueOf(s) > MaxUint32 ==> ParseUint32(s) == Err(NumRange(s))
  {
    if |s| > 0 {
      AccumulateMeaning(s, s, 0);
      if AllDigits(s) {
        assert Continued(0, s) == ValueOf(s);
      }
    }
  }

  /** The number `fmt.Sprintf("%d", n)` writes is read back by ParseUint32 exactly
      when it fits in 32 bits. */
  lemma ParseFormatRoundTrip(n: nat)
    ensures n <= MaxUint32 ==> ParseUint32(FormatNat(n)) == Ok(n)
    ensures n > MaxUint32 ==> ParseUint32(FormatNat(n)) == Err(NumRange(FormatNat(n)))
  {
    ParseUint32Meaning(FormatNat(n));
  }

  /** Reads signed decimal text as `fmt.Sprintf("%d", i)` writes it: an optional minus
      sign, then digits. */
  function ReadInt(s: string): (r: Option<int>)
    ensures r.Some? ==> |s| >= 1
  {
    if |s| >= 2 && s[0] == '-' && AllDigits(s[1..]) then Some(0 - ValueOf(s[1..]) as int)
    else if |s| >= 1 && AllDigits(s) then Some(ValueOf(s))
    else None
  }

  /** Every signed number reads back from its decimal text. */
  lemma ReadFormatInt(i: int)
    ensures ReadInt(FormatInt(i)) == Some(i)
  {
    var s := FormatInt(i);
    if i >= 0 {
      assert IsDigit(s[0]);
    } else {
      assert s[1..] == FormatNat(-i);
    }
  }
}

=== FILE: flags.dfy ===
/** The feature bit-set (`type Flag int`) and its rendering as VBoxManage's on/off tokens. */
module Flags {

  /** Go's `int` on a 64-bit platform: `&` acts on the two's-complement bits. */
  type Flag = bv64

  /** A bit position within a Flag. */
  type BitIndex = i: bv8 | i < 64

  const Acpi: Flag := 1 << 0
  const IoApic: Flag := 1 << 1
  const RtcUseUtc: Flag := 1 << 2
  const CpuHotplug: Flag := 1 << 3
  const Pae: Flag := 1 << 4
  const LongMode: Flag := 1 << 5
  const SynthCpu: Flag := 1 << 6
  const Hpet: Flag := 1 << 7
  const HwVirtEx: Flag := 1 << 8
  const TripleFaultReset: Flag := 1 << 9
  const NestedPaging: Flag := 1 << 10
  const LargePages: Flag := 1 << 11
  const VtxVpid: Flag := 1 << 12
  const VtxUx: Flag := 1 << 13
  const Accelerate3d: Flag := 1 << 14

  /** The features `Modify` sets, in the order it writes them: VBoxManage option
      name (without the leading dashes) and the flag that controls it. */
  const Features: seq<(string, Flag)> := [
    ("acpi", Acpi), ("ioapic", IoApic), ("rtcuseutc", RtcUseUtc),
    ("cpuhotplug", CpuHotplug), ("pae", Pae), ("longmode", LongMode),
    ("synthcpu", SynthCpu), ("hpet", Hpet), ("hwvirtex", HwVirtEx),
    ("triplefaultreset", TripleFaultReset), ("nestedpaging", NestedPaging),
    ("largepages", LargePages), ("vtxvpid", VtxVpid), ("vtxux", VtxUx),
    ("accelerate3d", Accelerate3d)
  ]

  const FeatureCount: nat := 15

  function Bit(i: BitIndex): Flag
  {
    1 << i
  }

  /** Bit i of f is set. */
  predicate Has(f: Flag, i: BitIndex)
  {
    f & Bit(i) != 0
  }

  /** `bool2string`: the token VBoxManage takes for a switch. */
  function OnOff(b: bool): (s: string)
    ensures s == "on" || s == "off"
    ensures s == "on" <==> b
  {
    if b then "on" else "off"
  }

  /** `Flag.Get`: "on" when every bit of o is also set in f, "off" otherwise. */
  function Get(f: Flag, o: Flag): (s: string)
    ensures s == "on" || s == "off"
    ensures s == "on" <==> f & o == o
  {
    OnOff(f & o == o)
  }

  /** The named features are the bits 0 to 14, in that order (Go's `1 << iota`). */
  lemma FeaturesAreSuccessiveBits()
    ensures |Features| == FeatureCount
    ensures forall i :: 0 <= i < FeatureCount ==> Features[i].1 == Bit(i as BitIndex)
  {
    forall i | 0 <= i < FeatureCount
      ensures Features[i].1 == Bit(i as BitIndex)
    {
      var b := i as BitIndex;
      assert Features[i].1 == 1 << b;
    }
  }

  /** For a single feature bit, Get reports whether that bit is set. */
  lemma GetSingleBit(f: Flag, i: BitIndex)
    ensures Get(f, Bit(i)) == "on" <==> Has(f, i)
  {
  }

  lemma OnKeepsBit(f: Flag, o: Flag, i: BitIndex)
    requires f & o == o
    ensures Has(o, i) ==> Has(f, i)
  {
  }

  lemma ClearedBit(f: Flag, o: Flag, i: BitIndex)
    requires Has(o, i) ==> Has(f, i)
    ensures (o & !f) & Bit(i) == 0
  {
  }

  /** The bits below position k. */
  function LowBits(k: bv8): Flag
    requires k <= 64
  {
    if k == 64 then 0xFFFF_FFFF_FFFF_FFFF else (1 << k) - 1
  }

  lemma LowBitsStep(d: Flag, k: BitIndex)
    requires d & LowBits(k) == 0 && d & Bit(k) == 0
    ensures d & LowBits(k + 1) == 0
  {
    LowBitsGrow(k);
    ClearOfUnion(d, LowBits(k), Bit(k));
  }

  lemma LowBitsGrow(k: BitIndex)
    ensures LowBits(k + 1) == LowBits(k) | Bit(k)
  {
  }

  lemma ClearOfUnion(d: Flag, a: Flag, b: Flag)
    requires d & a == 0 && d & b == 0
    ensures d & (a | b) == 0
  {
  }

  lemma EveryBitMakesOn(f: Flag, o: Flag)
    requires forall i: BitIndex :: Has(o, i) ==> Has(f, i)
    ensures f & o == o
  {
    var d := o & !f;
    var k: bv8 := 0;
    while k < 64
      invariant k <= 64
      invariant d & LowBits(k) == 0
    {
      ClearedBit(f, o, k);
      LowBitsStep(d, k);
      k := k + 1;
    }
    assert d == 0;
  }

  /** Get(f, o) is "on" exactly when every bit set in o is set in f. */
  lemma GetOnIffEveryBit(f: Flag, o: Flag)
    ensures Get(f, o) == "on" <==> forall i: BitIndex :: Has(o, i) ==> Has(f, i)
  {
    if f & o == o {
      forall i: BitIndex
        ensures Has(o, i) ==> Has(f, i)
      {
        OnKeepsBit(f, o, i);
      }
    } else if forall i: BitIndex :: Has(o, i) ==> Has(f, i) {
      EveryBitMakesOn(f, o);
    }
  }
}

=== FILE: lifecycle.dfy ===
/** The lifecycle operations of `machine`: each picks its commands from the record's
    stored state. Only `Refresh` changes the record; the operations returning a `Step`
    never do. */
module Lifecycle {
  import opened Base
  import opened Commands
  import opened Machines

  /** One of the five states the package names. */
  predicate Known(s: MachineState) { !s.Other? }

  predicate Idle(s: MachineState) { s == PoweredOff || s == Aborted || s == Saved }

  /** A state table for VBoxManage's lifecycle commands: the state a command leaves a
      machine in, or None when the command does not apply to a machine in that state.
      Queries and configuration commands leave the state alone. */
  function After(s: MachineState, c: Command): Option<MachineState>
  {
    match c
    case Control(_, action) => AfterControl(s, action)
    case StartHeadless(_) => if Idle(s) then Some(Running) else None
    case Unregister(_) => if Idle(s) then Some(s) else None
    case ShowInfo(_) => Some(s)
    case ListVms => Some(s)
    case Invoke(_) => Some(s)
  }

  function AfterControl(s: MachineState, action: Action): Option<MachineState>
  {
    match action
    case Resume => if s == Paused then Some(Running) else None
    case SaveState => if s == Running then Some(Saved) else None
    case PauseVm => if s == Running then Some(Paused) else None
    case AcpiPowerButton => if s == Running then Some(Running) else None
    case PowerOffVm => if s == Running || s == Paused then Some(PoweredOff) else None
    case ResetVm => if s == Running then Some(Running) else None
  }

  /** The state a trace of commands leads to from s, or None if one does not apply. */
  function Effects(s: MachineState, trace: seq<Command>): Option<MachineState>
    decreases |trace|
  {
    if |trace| == 0 then Some(s)
    else
      match After(s, trace[0])
      case None => None
      case Some(t) => Effects(t, trace[1..])
  }

  /** `Start`: resume a paused machine, power on a stopped, saved or aborted one. */
  function Start(m: Machine, vbm: Executor): (r: Step)
    ensures m.state == Paused ==> r == Execute(vbm, [Control(m.name, Resume)])
    ensures Idle(m.state) ==> r == Execute(vbm, [StartHeadless(m.name)])
    ensures m.state == Running || m.state.Other? ==> r == Nothing
    ensures r.outcome.Pass? && Known(m.state) ==> Effects(m.state, r.trace) == Some(Running)
  {
    match m.state
    case Paused => Issue(vbm, Control(m.name, Resume))
    case PoweredOff | Saved | Aborted => Issue(vbm, StartHeadless(m.name))
    case _ => Nothing
  }

  /** `Save`: save the state of a running machine to disk, resuming a paused one first. */
  function Save(m: Machine, vbm: Executor): (r: Step)
    ensures Idle(m.state) ==> r == Nothing
    ensures m.state == Paused ==> r == Execute(vbm, [Control(m.name, Resume), Control(m.name, SaveState)])
    ensures m.state == Running || m.state.Other? ==> r == Execute(vbm, [Control(m.name, SaveState)])
    ensures r.outcome.Pass? && (m.state == Running || m.state == Paused) ==> Effects(m.state, r.trace) == Some(Saved)
  {
    match m.state
    case Paused =>
      assert Effects(Running, [Control(m.name, SaveState)]) == Some(Saved);
      Then(Start(m, vbm), Issue(vbm, Control(m.name, SaveState)))
    case PoweredOff | Aborted | Saved => Nothing
    case _ => Issue(vbm, Control(m.name, SaveState))
  }

  /** `Pause`. */
  function Pause(m: Machine, vbm: Executor): (r: Step)
    ensures Idle(m.state) || m.state == Paused ==> r == Nothing
    ensures m.state == Running || m.state.Other? ==> r == Execute(vbm, [Control(m.name, PauseVm)])
    ensures r.outcome.Pass? && Known(m.state) ==> Effects(m.state, r.trace) == Some(if m.state == Running then Paused else m.state)
  {
    match m.state
    case Paused | PoweredOff | Aborted | Saved => Nothing
    case _ => Issue(vbm, Control(m.name, PauseVm))
  }

  /** `Poweroff`: forced power-off; a paused machine is powered off too. */
  function Poweroff(m: Machine, vbm: Executor): (r: Step)
    ensures Idle(m.state) ==> r == Nothing
    ensures !Idle(m.state) ==> r == Execute(vbm, [Control(m.name, PowerOffVm)])
    ensures r.outcome.Pass? && Known(m.state) ==> Effects(m.state, r.trace).Some? && Idle(Effects(m.state, r.trace).value)
  {
    match m.state
    case PoweredOff | Aborted | Saved => Nothing
    case _ => Issue(vbm, Control(m.name, PowerOffVm))
  }

  /** `Reset`: forced restart; a paused or saved machine is started first. */
  function Reset(m: Machine, vbm: Executor): (r: Step)
    ensures m.state == Paused ==> r == Execute(vbm, [Control(m.name, Resume), Control(m.name, ResetVm)])
    ensures m.state == Saved ==> r == Execute(vbm, [StartHeadless(m.name), Control(m.name, ResetVm)])
    ensures m.state != Paused && m.state != Saved ==> r == Execute(vbm, [Control(m.name, ResetVm)])
    ensures r.outcome.Pass? && (m.state == Running || m.state == Paused || m.state == Saved) ==>
              Effects(m.state, r.trace) == Some(Running)
  {
    var first := if m.state == Paused || m.state == Saved then Start(m, vbm) else Nothing;
    Then(first, Issue(vbm, Control(m.name, ResetVm)))
  }

  /** `Delete`: power off, then unregister and delete the disk images; a failed
      power-off skips the unregister. */
  function Delete(m: Machine, vbm: Executor): (r: Step)
    ensures Idle(m.state) ==> r == Execute(vbm, [Unregister(m.name)])
    ensures !Idle(m.state) ==> r == Execute(vbm, [Control(m.name, PowerOffVm), Unregister(m.name)])
    ensures r.outcome.Pass? && Known(m.state) ==> Effects(m.state, r.trace).Some?
  {
    Then(Poweroff(m, vbm), Issue(vbm, Unregister(m.name)))
  }

  /** The loop of `Stop`: while the record does not say poweroff, press the power
      button and refresh. The reply oracle bounds the loop; when it runs out the loop
      ends with NoReply where Go's `Stop` would keep polling. */
  function StopLoop(m: Machine, vbm: Executor, replies: seq<Reply>): (r: Run)
    ensures r.outcome.Pass? ==> r.machine.state == PoweredOff
    ensures m.state == PoweredOff ==> r == Run([], m, Pass, replies)
    ensures |r.replies| <= |replies| && r.replies == replies[|replies| - |r.replies|..]
    decreases |replies|
  {
    if m.state == PoweredOff then Run([], m, Pass, replies)
    else
      var press := Control(m.name, AcpiPowerButton);
      if vbm(Argv(press)).Fail? then Run([press], m, vbm(Argv(press)), replies)
      else
        var rf := Refresh(m, replies);
        if rf.outcome.Fail? then Prepend([press], rf)
        else Prepend([press] + rf.trace, StopLoop(rf.machine, vbm, rf.replies))
  }

  /** Presses sit at the even positions of a trace and queries at the odd ones. */
  predicate Alternating(trace: seq<Command>)
  {
    forall i :: 0 <= i < |trace| ==> (IsPress(trace[i]) <==> i % 2 == 0) && (trace[i].ShowInfo? <==> i % 2 == 1)
  }

  /** Every press in a trace but possibly the last command succeeded. */
  predicate PressesPassedBefore(vbm: Executor, trace: seq<Command>)
  {
    forall i :: 0 <= i < |trace| - 1 && IsPress(trace[i]) ==> vbm(Argv(trace[i])) == Pass
  }

  /** A successful run ends right after a refresh; a failed one issued at least one
      command, and one that ends on a press fails with that press's error. */
  predicate EndsAfterRefresh(vbm: Executor, r: Run)
  {
    && (r.outcome.Pass? ==> |r.trace| % 2 == 0)
    && (r.outcome.Fail? ==> |r.trace| >= 1)
    && (r.outcome.Fail? && |r.trace| % 2 == 1 ==> r.outcome == vbm(Argv(r.trace[|r.trace| - 1])))
  }

  /** A failed run that ends on its k-th refresh fails with that refresh's error: the
      error the k-th reply reads as, or NoReply when the replies ran out first. */
  predicate RefreshFailureReported(replies: seq<Reply>, r: Run)
  {
    r.outcome.Fail? && |r.trace| % 2 == 0 ==>
      var k := |r.trace| / 2;
      if 1 <= k <= |replies| then GetMachine(replies[k - 1]).Err? && r.outcome == Fail(GetMachine(replies[k - 1]).error)
      else r.outcome == Fail(NoReply)
  }

  /** The shape of a run of the loop over the given replies: presses and refreshes
      alternate, every press but a failing last one succeeded, and the run ends as
      EndsAfterRefresh and RefreshFailureReported say. */
  predicate LoopShaped(vbm: Executor, replies: seq<Reply>, r: Run)
  {
    Alternating(r.trace) && PressesPassedBefore(vbm, r.trace) && EndsAfterRefresh(vbm, r)
    && RefreshFailureReported(replies, r)
  }

  /** One more round, a successful press and a refresh, in front of a well-shaped run
      gives a well-shaped run. */
  lemma ShapedRound(vbm: Executor, replies: seq<Reply>, press: Command, query: Command, rest: Run)
    requires IsPress(press) && vbm(Argv(press)) == Pass && query.ShowInfo?
    requires |replies| > 0 && LoopShaped(vbm, replies[1..], rest)
    ensures LoopShaped(vbm, replies, Prepend([press, query], rest))
  {
    var r := Prepend([press, query], rest);
    AlternatingRound(press, query, rest.trace);
    assert forall i :: 2 <= i < |r.trace| ==> r.trace[i] == rest.trace[i - 2];
    if r.outcome.Fail? && |r.trace| % 2 == 1 {
      assert r.trace[|r.trace| - 1] == rest.trace[|rest.trace| - 1];
    }
    FailureReportedRound(replies, [press, query], rest);
  }

  /** A press and a query in front of an alternating trace keep it alternating. */
  lemma AlternatingRound(press: Command, query: Command, rest: seq<Command>)
    requires IsPress(press) && query.ShowInfo? && Alternating(rest)
    ensures Alternating([press, query] + rest)
  {
    var t := [press, query] + rest;
    forall i | 2 <= i < |t|
      ensures (IsPress(t[i]) <==> i % 2 == 0) && (t[i].ShowInfo? <==> i % 2 == 1)
    {
      assert t[i] == rest[i - 2];
    }
  }

  /** A refresh failure reported in the rest of the loop is reported one round later
      in the whole. */
  lemma FailureReportedRound(replies: seq<Reply>, round: seq<Command>, rest: Run)
    requires |replies| > 0 && |round| == 2 && RefreshFailureReported(replies[1..], rest)
    requires rest.outcome.Fail? ==> |rest.trace| >= 1
    ensures RefreshFailureReported(replies, Prepend(round, rest))
  {
    var r := Prepend(round, rest);
    if r.outcome.Fail? && |r.trace| % 2 == 0 {
      var k := |rest.trace| / 2;
      assert |r.trace| / 2 == k + 1;
      if 1 <= k <= |replies| - 1 {
        assert replies[k] == replies[1..][k - 1];
      }
    }
  }

  /** Every iteration of the loop issues one press and then one refresh; every press
      but a failing last one succeeded; a successful loop ends after a refresh, and one
      that ends on a press fails with that press's error. */
  lemma {:induction false} StopLoopShape(m: Machine, vbm: Executor, replies: seq<Reply>)
    ensures LoopShaped(vbm, replies, StopLoop(m, vbm, replies))
    decreases |replies|
  {
    var press := Control(m.name, AcpiPowerButton);
    if m.state == PoweredOff || vbm(Argv(press)).Fail? {
      StopLoopEndsAtOnce(m, vbm, replies);
    } else if Refresh(m, replies).outcome.Fail? {
      RefreshFailShaped(m, vbm, replies);
    } else {
      var next := GetMachine(replies[0]).value;
      StopLoopRound(m, vbm, replies);
      StopLoopShape(next, vbm, replies[1..]);
      ShapedRound(vbm, replies, press, ShowInfo(Identifier(m)), StopLoop(next, vbm, replies[1..]));
    }
  }

  /** A loop on a powered-off machine, or whose first press fails, is well shaped. */
  lemma StopLoopEndsAtOnce(m: Machine, vbm: Executor, replies: seq<Reply>)
    requires m.state == PoweredOff || vbm(Argv(Control(m.name, AcpiPowerButton))).Fail?
    ensures LoopShaped(vbm, replies, StopLoop(m, vbm, replies))
  {
    var press := Control(m.name, AcpiPowerButton);
    if m.state != PoweredOff {
      assert StopLoop(m, vbm, replies) == Run([press], m, vbm(Argv(press)), replies);
    }
  }

  /** A loop whose first press succeeds and whose first refresh fails is well shaped. */
  lemma RefreshFailShaped(m: Machine, vbm: Executor, replies: seq<Reply>)
    requires m.state != PoweredOff
    requires vbm(Argv(Control(m.name, AcpiPowerButton))) == Pass && Refresh(m, replies).outcome.Fail?
    ensures LoopShaped(vbm, replies, StopLoop(m, vbm, replies))
  {
    var rf := Refresh(m, replies);
    var r := StopLoop(m, vbm, replies);
    assert r == Run([Control(m.name, AcpiPowerButton), ShowInfo(Identifier(m))], m, rf.outcome, rf.replies);
    assert |r.trace| / 2 == 1;
  }

  /** `Stop`: graceful shutdown. A stopped, saved or aborted machine is left alone; a
      paused one is resumed first. */
  function Stop(m: Machine, vbm: Executor, replies: seq<Reply>): (r: Run)
    ensures Idle(m.state) ==> r == Run([], m, Pass, replies)
    ensures m.state == Paused && vbm(Argv(Control(m.name, Resume))).Fail? ==>
              r == Run([Control(m.name, Resume)], m, vbm(Argv(Control(m.name, Resume))), replies)
    ensures m.state == Paused && vbm(Argv(Control(m.name, Resume))).Pass? ==>
              r == Prepend([Control(m.name, Resume)], StopLoop(m, vbm, replies))
    ensures m.state == Running || m.state.Other? ==> r == StopLoop(m, vbm, replies)
    ensures r.outcome.Pass? && m.state != Aborted && m.state != Saved ==> r.machine.state == PoweredOff
  {
    match m.state
    case PoweredOff | Aborted | Saved => Run([], m, Pass, replies)
    case Paused =>
      var s := Start(m, vbm);
      if s.outcome.Fail? then Run(s.trace, m, s.outcome, replies) else Prepend(s.trace, StopLoop(m, vbm, replies))
    case _ => StopLoop(m, vbm, replies)
  }

  /** Every power-button press succeeds, whatever the machine's name. */
  ghost predicate PressesPass(vbm: Executor)
  {
    forall name :: vbm(Argv(Control(name, AcpiPowerButton))) == Pass
  }

  /** The first n replies describe machines, and the n-th is the first that is
      powered off. */
  ghost predicate PowersOffAt(replies: seq<Reply>, n: nat)
  {
    && 1 <= n <= |replies|
    && (forall i :: 0 <= i < n - 1 ==> GetMachine(replies[i]).Ok? && GetMachine(replies[i]).value.state != PoweredOff)
    && GetMachine(replies[n - 1]).Ok? && GetMachine(replies[n - 1]).value.state == PoweredOff
  }

  /** A successful run that pressed the button n times, each press followed by one
      refresh, and ended with the record the n-th reply describes. */
  predicate PressedTimes(r: Run, replies: seq<Reply>, n: nat)
  {
    && 1 <= n <= |replies| && GetMachine(replies[n - 1]).Ok?
    && r.outcome == Pass && |r.trace| == 2 * n && Presses(r.trace) == n
    && r.machine == GetMachine(replies[n - 1]).value && r.replies == replies[n..]
  }

  /** One more round, a press and a refresh reading the first reply, in front of a run
      that pressed n - 1 times over the remaining replies. */
  lemma PressedRound(press: Command, query: Command, rest: Run, replies: seq<Reply>, n: nat)
    requires IsPress(press) && query.ShowInfo? && n > 1 && |replies| >= 1
    requires PressedTimes(rest, replies[1..], n - 1)
    ensures PressedTimes(Prepend([press, query], rest), replies, n)
  {
    PressesAppend([press, query], rest.trace);
    assert replies[1..][n - 1..] == replies[n..];
    assert replies[1..][n - 2] == replies[n - 1];
  }

  /** If the n-th refresh is the first to report poweroff, the loop presses the button
      exactly n times, each press followed by one refresh, and succeeds. */
  lemma {:induction false} StopLoopPresses(m: Machine, vbm: Executor, replies: seq<Reply>, n: nat)
    requires m.state != PoweredOff && PressesPass(vbm) && PowersOffAt(replies, n)
    ensures PressedTimes(StopLoop(m, vbm, replies), replies, n)
    decreases n
  {
    var press := Control(m.name, AcpiPowerButton);
    var next := GetMachine(replies[0]).value;
    StopLoopRound(m, vbm, replies);
    var rest := StopLoop(next, vbm, replies[1..]);
    if n == 1 {
      PressedOnce(m, vbm, replies);
    } else {
      PowersOffLater(replies, n);
      StopLoopPresses(next, vbm, replies[1..], n - 1);
      PressedRound(press, ShowInfo(Identifier(m)), rest, replies, n);
    }
  }

  /** One round of the loop on a machine that is not powered off, when the press
      succeeds and the refresh reads a machine. */
  lemma StopLoopRound(m: Machine, vbm: Executor, replies: seq<Reply>)
    requires m.state != PoweredOff && vbm(Argv(Control(m.name, AcpiPowerButton))) == Pass
    requires |replies| > 0 && GetMachine(replies[0]).Ok?
    ensures StopLoop(m, vbm, replies) ==
              Prepend([Control(m.name, AcpiPowerButton), ShowInfo(Identifier(m))],
                      StopLoop(GetMachine(replies[0]).value, vbm, replies[1..]))
  {
    var press := Control(m.name, AcpiPowerButton);
    var rf := Refresh(m, replies);
    assert rf.outcome.Pass? && rf.machine == GetMachine(replies[0]).value && rf.replies == replies[1..];
    assert [press] + rf.trace == [press, ShowInfo(Identifier(m))];
  }

  /** A loop whose first refresh reads poweroff presses once. */
  lemma PressedOnce(m: Machine, vbm: Executor, replies: seq<Reply>)
    requires m.state != PoweredOff && vbm(Argv(Control(m.name, AcpiPowerButton))) == Pass
    requires |replies| > 0 && GetMachine(replies[0]).Ok? && GetMachine(replies[0]).value.state == PoweredOff
    ensures PressedTimes(StopLoop(m, vbm, replies), replies, 1)
  {
    var press := Control(m.name, AcpiPowerButton);
    var next := GetMachine(replies[0]).value;
    StopLoopRound(m, vbm, replies);
    assert StopLoop(next, vbm, replies[1..]) == Run([], next, Pass, replies[1..]);
    assert Presses([press, ShowInfo(Identifier(m))]) == 1;
  }

  /** If the n-th reply is the first poweroff and n > 1, the (n-1)-th of the rest is. */
  lemma PowersOffLater(replies: seq<Reply>, n: nat)
    requires PowersOffAt(replies, n) && n > 1
    ensures PowersOffAt(replies[1..], n - 1)
  {
    var tail := replies[1..];
    forall i | 0 <= i < n - 2
      ensures GetMachine(tail[i]).Ok? && GetMachine(tail[i]).value.state != PoweredOff
    {
      assert tail[i] == replies[i + 1];
    }
  }

  /** With every press succeeding, the loop succeeds exactly when some refresh reports
      poweroff before a refresh fails or the replies run out. */
  lemma {:induction false} StopLoopSucceedsIff(m: Machine, vbm: Executor, replies: seq<Reply>)
    requires m.state != PoweredOff && PressesPass(vbm)
    ensures StopLoop(m, vbm, replies).outcome.Pass? <==> exists n :: PowersOffAt(replies, n)
    decreases |replies|
  {
    if exists n :: PowersOffAt(replies, n) {
      var n :| PowersOffAt(replies, n);
      StopLoopPresses(m, vbm, replies, n);
    } else if StopLoop(m, vbm, replies).outcome.Pass? {
      var press := Control(m.name, AcpiPowerButton);
      assert vbm(Argv(press)) == Pass;
      var rf := Refresh(m, replies);
      assert rf.outcome.Pass?;
      if rf.machine.state == PoweredOff {
        assert PowersOffAt(replies, 1);
      } else {
        StopLoopSucceedsIff(rf.machine, vbm, rf.replies);
        var k: nat :| PowersOffAt(rf.replies, k);
        assert PowersOffAt(replies, k + 1) by {
          forall i | 0 <= i < k
            ensures GetMachine(replies[i]).Ok? && GetMachine(replies[i]).value.state != PoweredOff
          {
            if i > 0 { assert replies[i] == rf.replies[i - 1]; }
          }
          assert replies[k] == rf.replies[k - 1];
        }
      }
    }
  }

  /** The commands `Stop` issues from a running (or unrecognised) state when the n-th
      refresh reports poweroff: n presses, and success. */
  lemma StopPresses(m: Machine, vbm: Executor, replies: seq<Reply>, n: nat)
    requires m.state == Running || m.state.Other? || (m.state == Paused && vbm(Argv(Control(m.name, Resume))) == Pass)
    requires PressesPass(vbm) && PowersOffAt(replies, n)
    ensures Stop(m, vbm, replies).outcome == Pass
    ensures Presses(Stop(m, vbm, replies).trace) == n
    ensures Stop(m, vbm, replies).machine.state == PoweredOff
  {
    StopLoopPresses(m, vbm, replies, n);
    if m.state == Paused {
      PressesAppend([Control(m.name, Resume)], StopLoop(m, vbm, replies).trace);
    }
  }

  /** `Restart`: graceful restart. A paused or saved machine is started first; then
      `Stop` and `Start` run on the record, whose state only `Stop`'s refreshes update. */
  function Restart(m: Machine, vbm: Executor, replies: seq<Reply>): (r: Run)
    ensures r.outcome.Pass? ==> |r.trace| >= 1 && r.trace[|r.trace| - 1].StartHeadless?
    ensures (m.state == Paused || m.state == Saved) && Start(m, vbm).outcome.Fail? ==>
              r == Run(Start(m, vbm).trace, m, Start(m, vbm).outcome, replies)
    ensures (m.state == Paused || m.state == Saved) && Start(m, vbm).outcome.Pass? && Stop(m, vbm, replies).outcome.Fail? ==>
              r == Prepend(Start(m, vbm).trace, Stop(m, vbm, replies))
    ensures m.state != Paused && m.state != Saved && Stop(m, vbm, replies).outcome.Fail? ==> r == Stop(m, vbm, replies)
    ensures var first := if m.state == Paused || m.state == Saved then Start(m, vbm).trace else [];
            var stop := Stop(m, vbm, replies);
            first == [] || Start(m, vbm).outcome.Pass? ==>
              stop.outcome.Pass? ==>
                r == Run(first + stop.trace + Start(stop.machine, vbm).trace, stop.machine,
                         Start(stop.machine, vbm).outcome, stop.replies)
  {
    var first := if m.state == Paused || m.state == Saved then Start(m, vbm) else Nothing;
    if first.outcome.Fail? then Run(first.trace, m, first.outcome, replies)
    else
      var stop := Prepend(first.trace, Stop(m, vbm, replies));
      if stop.outcome.Fail? then stop
      else
        var again := Start(stop.machine, vbm);
        Run(stop.trace + again.trace, stop.machine, again.outcome, stop.replies)
  }

  /** As written, Restart of a saved machine starts it twice and never presses the
      power button: the second `startvm` targets a machine the first one started,
      which the state table rejects. */
  lemma RestartFromSavedStartsTwice(m: Machine, vbm: Executor, replies: seq<Reply>)
    requires m.state == Saved && vbm(Argv(StartHeadless(m.name))) == Pass
    ensures Restart(m, vbm, replies).trace == [StartHeadless(m.name), StartHeadless(m.name)]
    ensures Presses(Restart(m, vbm, replies).trace) == 0
    ensures Effects(m.state, Restart(m, vbm, replies).trace) == None
  {
    assert Effects(Running, [StartHeadless(m.name)]) == None;
  }

  /** As written, Restart of a paused machine resumes it twice. */
  lemma RestartFromPausedResumesTwice(m: Machine, vbm: Executor, replies: seq<Reply>)
    requires m.state == Paused && vbm(Argv(Control(m.name, Resume))) == Pass
    ensures Restart(m, vbm, replies).trace[..2] == [Control(m.name, Resume), Control(m.name, Resume)]
    ensures Effects(m.state, Restart(m, vbm, replies).trace[..2]) == None
  {
    var r := Restart(m, vbm, replies);
    assert r.trace[0] == Control(m.name, Resume);
    assert r.trace[1] == Control(m.name, Resume);
    assert Effects(Running, [Control(m.name, Resume)]) == None;
  }

  /** Outside the paused and saved states Go's `Restart` is the corrected one. */
  lemma RestartAgreesOutsidePausedSaved(m: Machine, vbm: Executor, replies: seq<Reply>)
    requires m.state != Paused && m.state != Saved
    ensures Restart(m, vbm, replies) == RestartIntended(m, vbm, replies)
  {
  }

  /** A stopped or aborted machine is only started: Stop leaves it alone. */
  lemma RestartFromStopped(m: Machine, vbm: Executor, replies: seq<Reply>)
    requires m.state == PoweredOff || m.state == Aborted
    ensures Restart(m, vbm, replies) == Run([StartHeadless(m.name)], m, vbm(Argv(StartHeadless(m.name))), replies)
  {
  }

  /** Restart as the state table intends it: once the first `Start` of a paused or saved
      machine succeeds the machine is running, so `Stop` proceeds from running. */
  function RestartIntended(m: Machine, vbm: Executor, replies: seq<Reply>): (r: Run)
    ensures r.outcome.Pass? ==> |r.trace| >= 1 && r.trace[|r.trace| - 1].StartHeadless?
  {
    var first := if m.state == Paused || m.state == Saved then Start(m, vbm) else Nothing;
    if first.outcome.Fail? then Run(first.trace, m, first.outcome, replies)
    else
      var believed := if m.state == Paused || m.state == Saved then m.(state := Running) else m;
      var stop := Prepend(first.trace, Stop(believed, vbm, replies));
      if stop.outcome.Fail? then stop
      else
        var again := Start(stop.machine, vbm);
        Run(stop.trace + again.trace, stop.machine, again.outcome, stop.replies)
  }

  /** The corrected Restart of a paused, saved or running machine starts it if needed,
      presses the power button once per refresh until the n-th reports poweroff, and
      only then powers it on again. */
  lemma RestartIntendedStopsFirst(m: Machine, vbm: Executor, replies: seq<Reply>, n: nat)
    requires m.state == Paused || m.state == Saved || m.state == Running
    requires m.state == Paused ==> vbm(Argv(Control(m.name, Resume))) == Pass
    requires m.state == Saved ==> vbm(Argv(StartHeadless(m.name))) == Pass
    requires PressesPass(vbm) && PowersOffAt(replies, n)
    ensures Presses(RestartIntended(m, vbm, replies).trace) == n
    ensures var r := RestartIntended(m, vbm, replies);
            r.machine.state == PoweredOff
            && r.trace[|r.trace| - 1] == StartHeadless(r.machine.name)
            && r.outcome == vbm(Argv(StartHeadless(r.machine.name)))
  {
    var first := if m.state == Paused || m.state == Saved then Start(m, vbm) else Nothing;
    var believed := if m.state == Paused || m.state == Saved then m.(state := Running) else m;
    StopPresses(believed, vbm, replies, n);
    var stop := Stop(believed, vbm, replies);
    var again := Start(stop.machine, vbm);
    var r := RestartIntended(m, vbm, replies);
    assert r.trace == first.trace + stop.trace + again.trace;
    PressesAppend(first.trace, stop.trace);
    PressesAppend(first.trace + stop.trace, again.trace);
  }

  /** Up to its first press, every command the corrected Restart issues applies in the
      state table and leaves the machine running. */
  lemma RestartIntendedPressesRunning(m: Machine, vbm: Executor, replies: seq<Reply>)
    requires m.state == Paused || m.state == Saved || m.state == Running
    requires m.state == Paused ==> vbm(Argv(Control(m.name, Resume))) == Pass
    requires m.state == Saved ==> vbm(Argv(StartHeadless(m.name))) == Pass
    ensures var r := RestartIntended(m, vbm, replies);
            var k := if m.state == Running then 0 else 1;
            |r.trace| > k && r.trace[k] == Control(m.name, AcpiPowerButton) && Effects(m.state, r.trace[..k + 1]) == Some(Running)
  {
    var press := Control(m.name, AcpiPowerButton);
    var first := Start(m, vbm);
    var loop := StopLoop(m.(state := Running), vbm, replies);
    RestartIntendedBegins(m, vbm, replies);
    StartThenPress(m, vbm);
    var r := RestartIntended(m, vbm, replies);
    var k := |first.trace|;
    var p := r.trace[..k + |loop.trace|];
    assert p == first.trace + loop.trace;
    assert r.trace[k] == p[k] == press;
    assert r.trace[..k + 1] == p[..k + 1];
    assert p[..k] == first.trace;
    assert p[..k + 1] == p[..k] + [p[k]];
  }

  /** Pressing the power button after the start leaves a paused, saved or running
      machine running. */
  lemma StartThenPress(m: Machine, vbm: Executor)
    requires m.state == Paused || m.state == Saved || m.state == Running
    requires m.state == Paused ==> vbm(Argv(Control(m.name, Resume))) == Pass
    requires m.state == Saved ==> vbm(Argv(StartHeadless(m.name))) == Pass
    ensures Effects(m.state, Start(m, vbm).trace + [Control(m.name, AcpiPowerButton)]) == Some(Running)
  {
    var press := Control(m.name, AcpiPowerButton);
    assert Effects(Running, [press]) == Some(Running);
    if m.state != Running {
      assert Effects(Running, []) == Some(Running);
    }
  }

  /** The corrected Restart of a paused, saved or running machine begins with the start
      that resumes it, followed by the stop loop of the running machine, whose first
      command is a press of the power button. */
  lemma RestartIntendedBegins(m: Machine, vbm: Executor, replies: seq<Reply>)
    requires m.state == Paused || m.state == Saved || m.state == Running
    requires m.state == Paused ==> vbm(Argv(Control(m.name, Resume))) == Pass
    requires m.state == Saved ==> vbm(Argv(StartHeadless(m.name))) == Pass
    ensures var first := Start(m, vbm);
            var loop := StopLoop(m.(state := Running), vbm, replies);
            var r := RestartIntended(m, vbm, replies);
            |first.trace| == (if m.state == Running then 0 else 1)
            && |loop.trace| >= 1 && loop.trace[0] == Control(m.name, AcpiPowerButton)
            && |r.trace| >= |first.trace| + |loop.trace|
            && r.trace[..|first.trace| + |loop.trace|] == first.trace + loop.trace
  {
    var first := Start(m, vbm);
    var believed := m.(state := Running);
    if m.state == Running {
      assert believed == m;
    }
    StopLoopStartsWithPress(believed, vbm, replies);
    var stop := Stop(believed, vbm, replies);
    var r := RestartIntended(m, vbm, replies);
    if stop.outcome.Pass? {
      assert r.trace == first.trace + stop.trace + Start(stop.machine, vbm).trace;
    }
  }

  /** From any state but poweroff the loop's first command is a press. */
  lemma StopLoopStartsWithPress(m: Machine, vbm: Executor, replies: seq<Reply>)
    requires m.state != PoweredOff
    ensures |StopLoop(m, vbm, replies).trace| >= 1
    ensures StopLoop(m, vbm, replies).trace[0] == Control(m.name, AcpiPowerButton)
  {
  }
}

=== FILE: machine.dfy ===
/** The machine record, the parser for `showvminfo --machinereadable` output
    (`getMachine`) and `Refresh`. */
module Machines {
  import opened Base
  import opened Decimal
  import opened Flags
  import opened Paths
  import opened Options
  import opened Commands

  /** A machine state as VBoxManage reports it. The five states the package names get
      their own variant (PoweredOff is the text "poweroff", Go's `Poweroff`); any other
      text is kept verbatim. */
  datatype StateName = PoweredOff | Running | Paused | Saved | Aborted | Other(text: string)

  predicate Recognised(t: string)
  {
    t == "poweroff" || t == "running" || t == "paused" || t == "saved" || t == "aborted"
  }

  /** `MachineState` is a string in the Go package: `Other` never holds one of the five
      names, so comparing variants is comparing the text. */
  type MachineState = s: StateName | !(s.Other? && Recognised(s.text)) witness PoweredOff

  function StateText(s: MachineState): string
  {
    match s
    case PoweredOff => "poweroff"
    case Running => "running"
    case Paused => "paused"
    case Saved => "saved"
    case Aborted => "aborted"
    case Other(t) => t
  }

  /** `MachineState(val)`: the state named by the text. */
  function StateOf(t: string): (s: MachineState)
    ensures StateText(s) == t
  {
    if t == "poweroff" then PoweredOff
    else if t == "running" then Running
    else if t == "paused" then Paused
    else if t == "saved" then Saved
    else if t == "aborted" then Aborted
    else Other(t)
  }

  /** Text and state determine each other. */
  lemma StateTextRoundTrip(s: MachineState, t: string)
    ensures StateOf(StateText(s)) == s
    ensures StateOf(t) == s <==> StateText(s) == t
  {
  }

  /** Machine information (`type machine struct`). Go's `uint` fields are unbounded
      naturals here. */
  datatype Machine = Machine(
    name: string,
    uuid: string,
    state: MachineState,
    cpus: nat,
    memory: nat,        // MB
    vram: nat,          // MB
    cfgFile: string,
    baseFolder: string,
    osType: string,
    flag: Flag,
    bootOrder: seq<string>)

  /** The zero value `&machine{}` the parser starts from. */
  const Blank: Machine := Machine("", "", Other(""), 0, 0, 0, "", "", "", 0, [])

  /** What `reVMInfoLine` captures on a `key=value` line: the key quoted or bare, the
      value quoted or bare (an unused group is empty). */
  datatype InfoMatch = InfoMatch(quotedKey: string, bareKey: string, quotedValue: string, bareValue: string)
  {
    function Key(): string { if quotedKey == "" then bareKey else quotedKey }
    function Value(): string { if quotedValue == "" then bareValue else quotedValue }
  }

  /** A line of VBoxManage output, seen through the patterns the package applies to it:
      `reVMInfoLine` for `showvminfo`, `reVMNameUUID` (the quoted name) for `list vms`. */
  datatype Line = Line(info: Option<InfoMatch>, listed: Option<string>)

  /** What VBoxManage answers to a query: its standard output, or a failure whose
      standard error does or does not match `reMachineNotFound`. */
  datatype Reply = Output(stdout: seq<Line>) | Failed(notFound: bool, message: string)

  /** The (key, value) pairs of the lines that match, in order. */
  function Pairs(lines: seq<Line>): (kvs: seq<(string, string)>)
    ensures |kvs| <= |lines|
  {
    if |lines| == 0 then []
    else
      var last := lines[|lines| - 1];
      Pairs(lines[..|lines| - 1]) + (if last.info.Some? then [(last.info.value.Key(), last.info.value.Value())] else [])
  }

  predicate IsNumericKey(k: string) { k == "memory" || k == "cpus" || k == "vram" }

  predicate IsKnownKey(k: string)
  {
    IsNumericKey(k) || k == "name" || k == "UUID" || k == "VMState" || k == "CfgFile"
  }

  /** One `case` of the parse loop's switch. */
  function Assign(m: Machine, key: string, val: string): (r: Result<Machine>)
    ensures !IsKnownKey(key) ==> r == Ok(m)
    ensures r.Err? <==> IsNumericKey(key) && ParseUint32(val).Err?
    ensures r.Err? ==> r.error == ParseUint32(val).error
  {
    if key == "name" then Ok(m.(name := val))
    else if key == "UUID" then Ok(m.(uuid := val))
    else if key == "VMState" then Ok(m.(state := StateOf(val)))
    else if key == "memory" then
      var n :- ParseUint32(val);
      Ok(m.(memory := n))
    else if key == "cpus" then
      var n :- ParseUint32(val);
      Ok(m.(cpus := n))
    else if key == "vram" then
      var n :- ParseUint32(val);
      Ok(m.(vram := n))
    else if key == "CfgFile" then Ok(m.(cfgFile := val, baseFolder := Dir(val)))
    else Ok(m)
  }

  /** The parse loop of `getMachine`, run over the lines in order starting from `m`:
      unmatched lines are skipped and the first bad number ends the parse. */
  function ParseFrom(m: Machine, lines: seq<Line>): Result<Machine>
  {
    if |lines| == 0 then Ok(m)
    else
      var r :- ParseFrom(m, lines[..|lines| - 1]);
      var last := lines[|lines| - 1];
      if last.info.None? then Ok(r) else Assign(r, last.info.value.Key(), last.info.value.Value())
  }

  function ParseInfo(lines: seq<Line>): Result<Machine>
  {
    ParseFrom(Blank, lines)
  }

  /** A matched line whose number does not parse. */
  predicate BadNumber(kv: (string, string))
  {
    IsNumericKey(kv.0) && ParseUint32(kv.1).Err?
  }

  function NumberOr(t: string, default: nat): nat
  {
    match ParseUint32(t)
    case Ok(n) => n
    case Err(_) => default
  }

  /** The record `m` with every field the key/value pairs set replaced by the value of
      the last pair naming it: a reference definition of the parse, field by field. */
  function Overlay(m: Machine, kvs: seq<(string, string)>): Machine
  {
    var cfg := Lookup(kvs, "CfgFile");
    m.(name := Lookup(kvs, "name").GetOr(m.name),
       uuid := Lookup(kvs, "UUID").GetOr(m.uuid),
       state := if Lookup(kvs, "VMState").Some? then StateOf(Lookup(kvs, "VMState").value) else m.state,
       memory := NumberOr(Lookup(kvs, "memory").GetOr(""), m.memory),
       cpus := NumberOr(Lookup(kvs, "cpus").GetOr(""), m.cpus),
       vram := NumberOr(Lookup(kvs, "vram").GetOr(""), m.vram),
       cfgFile := cfg.GetOr(m.cfgFile),
       baseFolder := if cfg.Some? then Dir(cfg.value) else m.baseFolder)
  }

  /** Appending one pair to an overlay is applying that pair's assignment. */
  lemma OverlaySnoc(m: Machine, kvs: seq<(string, string)>, kv: (string, string))
    requires !BadNumber(kv)
    ensures Assign(Overlay(m, kvs), kv.0, kv.1) == Ok(Overlay(m, kvs + [kv]))
  {
    var all := kvs + [kv];
    assert ParseUint32("").Err?;
    LookupLast(kvs, kv, "name"); LookupLast(kvs, kv, "UUID"); LookupLast(kvs, kv, "VMState");
    LookupLast(kvs, kv, "memory"); LookupLast(kvs, kv, "cpus"); LookupLast(kvs, kv, "vram");
    LookupLast(kvs, kv, "CfgFile");
    var o := Overlay(m, kvs);
    if kv.0 == "memory" {
      assert Overlay(m, all) == o.(memory := NumberOr(kv.1, m.memory));
    } else if kv.0 == "cpus" {
      assert Overlay(m, all) == o.(cpus := NumberOr(kv.1, m.cpus));
    } else if kv.0 == "vram" {
      assert Overlay(m, all) == o.(vram := NumberOr(kv.1, m.vram));
    } else if kv.0 == "CfgFile" {
      assert Overlay(m, all) == o.(cfgFile := kv.1, baseFolder := Dir(kv.1));
    }
  }

  /** The parse succeeds exactly when no matched line carries a bad number, and then
      yields the overlay of the matched pairs; a failure is the error of the first bad
      number. */
  lemma {:induction false} ParseFromMeaning(m: Machine, lines: seq<Line>)
    ensures ParseFrom(m, lines).Ok? <==> NoBadNumber(Pairs(lines))
    ensures ParseFrom(m, lines).Ok? ==> ParseFrom(m, lines).value == Overlay(m, Pairs(lines))
    ensures ParseFrom(m, lines).Err? ==> FailsAtFirstBad(Pairs(lines), ParseFrom(m, lines).error)
    decreases |lines|
  {
    if |lines| == 0 {
      assert Overlay(m, []) == m by { assert ParseUint32("").Err?; }
    } else {
      var init := lines[..|lines| - 1];
      var last := lines[|lines| - 1];
      ParseFromMeaning(m, init);
      var p := Pairs(init);
      if last.info.Some? {
        var kv := (last.info.value.Key(), last.info.value.Value());
        assert Pairs(lines) == p + [kv];
        BadNumberSnoc(p, kv);
        if ParseFrom(m, init).Ok? && !BadNumber(kv) {
          OverlaySnoc(m, p, kv);
        }
      } else {
        assert Pairs(lines) == p;
      }
    }
  }

  /** No matched pair carries a bad number. */
  predicate NoBadNumber(kvs: seq<(string, string)>)
  {
    forall i :: 0 <= i < |kvs| ==> !BadNumber(kvs[i])
  }

  /** e is the error of the first pair that carries a bad number. */
  predicate FailsAtFirstBad(kvs: seq<(string, string)>, e: Error)
  {
    exists j :: 0 <= j < |kvs| && BadNumber(kvs[j]) && e == ParseUint32(kvs[j].1).error
      && forall i :: 0 <= i < j ==> !BadNumber(kvs[i])
  }

  /** Appending a pair: the first bad number stays first, and a bad pair after good
      ones becomes the first bad number. */
  lemma BadNumberSnoc(kvs: seq<(string, string)>, kv: (string, string))
    ensures NoBadNumber(kvs + [kv]) <==> NoBadNumber(kvs) && !BadNumber(kv)
    ensures forall e :: FailsAtFirstBad(kvs, e) ==> FailsAtFirstBad(kvs + [kv], e)
    ensures NoBadNumber(kvs) && BadNumber(kv) ==> FailsAtFirstBad(kvs + [kv], ParseUint32(kv.1).error)
  {
    var all := kvs + [kv];
    assert forall i :: 0 <= i < |kvs| ==> all[i] == kvs[i];
    assert all[|kvs|] == kv;
    forall e | FailsAtFirstBad(kvs, e)
      ensures FailsAtFirstBad(all, e)
    {
      var j :| 0 <= j < |kvs| && BadNumber(kvs[j]) && e == ParseUint32(kvs[j].1).error
                && forall i :: 0 <= i < j ==> !BadNumber(kvs[i]);
      assert all[j] == kvs[j];
    }
  }

  /** `getMachine`: the record one `showvminfo --machinereadable` reply describes. */
  function GetMachine(reply: Reply): (r: Result<Machine>)
    ensures reply.Failed? ==> r.Err? && (r.error == MachineNotExist <==> reply.notFound)
    ensures reply.Failed? && !reply.notFound ==> r.error == ToolFailure(reply.message)
  {
    match reply
    case Failed(notFound, message) => if notFound then Err(MachineNotExist) else Err(ToolFailure(message))
    case Output(stdout) => ParseInfo(stdout)
  }

  /** The machine a successful reply describes: the fields its last matching lines
      name, every other field at its zero value. */
  lemma GetMachineMeaning(reply: Reply)
    requires reply.Output?
    ensures GetMachine(reply).Ok? <==> NoBadNumber(Pairs(reply.stdout))
    ensures GetMachine(reply).Ok? ==> GetMachine(reply).value == Overlay(Blank, Pairs(reply.stdout))
    ensures GetMachine(reply).Ok? ==>
              var r := GetMachine(reply).value;
              r.osType == "" && r.flag == 0 && r.bootOrder == []
  {
    ParseFromMeaning(Blank, reply.stdout);
  }

  /** A query's answer and the replies left after it. */
  datatype Answer = Answer(result: Result<Machine>, replies: seq<Reply>)

  /** A `key="value"` line as `reVMInfoLine` captures it: bare key, quoted value. */
  function Quoted(key: string, value: string): Line
  {
    Line(Some(InfoMatch("", key, value, "")), None)
  }

  /** The seven lines VBoxManage prints for the fields the package reads are read into
      exactly those fields; the base folder is the directory of the config file and every
      other field keeps its zero value. */
  lemma GetMachineReadsStandardReply(name: string, uuid: string, state: string, cfg: string,
                                     memText: string, cpusText: string, vramText: string, memory: nat, cpus: nat, vram: nat)
    requires ParseUint32(memText) == Ok(memory) && ParseUint32(cpusText) == Ok(cpus) && ParseUint32(vramText) == Ok(vram)
    ensures GetMachine(Output([Quoted("name", name), Quoted("UUID", uuid), Quoted("VMState", state),
                               Quoted("memory", memText), Quoted("cpus", cpusText), Quoted("vram", vramText),
                               Quoted("CfgFile", cfg)]))
            == Ok(Blank.(name := name, uuid := uuid, state := StateOf(state), memory := memory, cpus := cpus, vram := vram,
                         cfgFile := cfg, baseFolder := Dir(cfg)))
  {
    var q0, q1, q2, q3, q4, q5, q6 := Quoted("name", name), Quoted("UUID", uuid), Quoted("VMState", state),
      Quoted("memory", memText), Quoted("cpus", cpusText), Quoted("vram", vramText), Quoted("CfgFile", cfg);
    var m0 := Blank.(name := name);
    var m1 := m0.(uuid := uuid);
    var m2 := m1.(state := StateOf(state));
    var m3 := m2.(memory := memory);
    var m4 := m3.(cpus := cpus);
    var m5 := m4.(vram := vram);
    var l1 := [q0];
    assert ParseFrom(Blank, l1) == Ok(m0) by {
      assert Assign(Blank, "name", name) == Ok(m0);
      QuotedStep(Blank, [], "name", name, Blank, m0); assert [] + [q0] == l1;
    }
    var l2 := l1 + [q1];
    assert ParseFrom(Blank, l2) == Ok(m1) by { AssignText(m0, name, uuid, state); QuotedStep(Blank, l1, "UUID", uuid, m0, m1); }
    var l3 := l2 + [q2];
    assert ParseFrom(Blank, l3) == Ok(m2) by { AssignText(m1, name, uuid, state); QuotedStep(Blank, l2, "VMState", state, m1, m2); }
    var l4 := l3 + [q3];
    assert ParseFrom(Blank, l4) == Ok(m3) by {
      AssignNumbers(m2, memText, memory, cpusText, cpus, vramText, vram); QuotedStep(Blank, l3, "memory", memText, m2, m3);
    }
    var l5 := l4 + [q4];
    assert ParseFrom(Blank, l5) == Ok(m4) by {
      AssignNumbers(m3, memText, memory, cpusText, cpus, vramText, vram); QuotedStep(Blank, l4, "cpus", cpusText, m3, m4);
    }
    var l6 := l5 + [q5];
    assert ParseFrom(Blank, l6) == Ok(m5) by {
      AssignNumbers(m4, memText, memory, cpusText, cpus, vramText, vram); QuotedStep(Blank, l5, "vram", vramText, m4, m5);
    }
    var l7 := l6 + [q6];
    var m6 := m5.(cfgFile := cfg, baseFolder := Dir(cfg));
    assert ParseFrom(Blank, l7) == Ok(m6) by {
      assert Assign(m5, "CfgFile", cfg) == Ok(m6);
      QuotedStep(Blank, l6, "CfgFile", cfg, m5, m6);
    }
    assert l7 == [q0, q1, q2, q3, q4, q5, q6];
  }

  /** One more quoted line whose assignment succeeds extends a successful parse. */
  lemma QuotedStep(m: Machine, lines: seq<Line>, key: string, val: string, before: Machine, after: Machine)
    requires ParseFrom(m, lines) == Ok(before) && Assign(before, key, val) == Ok(after)
    ensures ParseFrom(m, lines + [Quoted(key, val)]) == Ok(after)
  {
    ParseFromSnoc(m, lines, Quoted(key, val));
  }

  lemma AssignText(m: Machine, name: string, uuid: string, state: string)
    ensures Assign(m, "name", name) == Ok(m.(name := name))
    ensures Assign(m, "UUID", uuid) == Ok(m.(uuid := uuid))
    ensures Assign(m, "VMState", state) == Ok(m.(state := StateOf(state)))
  {
  }

  lemma AssignNumbers(m: Machine, memText: string, memory: nat, cpusText: string, cpus: nat, vramText: string, vram: nat)
    requires ParseUint32(memText) == Ok(memory) && ParseUint32(cpusText) == Ok(cpus) && ParseUint32(vramText) == Ok(vram)
    ensures Assign(m, "memory", memText) == Ok(m.(memory := memory))
    ensures Assign(m, "cpus", cpusText) == Ok(m.(cpus := cpus))
    ensures Assign(m, "vram", vramText) == Ok(m.(vram := vram))
  {
  }

  /** One more line: a matched line is assigned onto the record parsed so far. */
  lemma ParseFromSnoc(m: Machine, lines: seq<Line>, line: Line)
    ensures ParseFrom(m, lines + [line]) ==
              match ParseFrom(m, lines)
              case Err(e) => Err(e)
              case Ok(r) => if line.info.None? then Ok(r) else Assign(r, line.info.value.Key(), line.info.value.Value())
  {
    assert (lines + [line])[..|lines|] == lines;
  }

  /** Takes the next reply of the oracle for a `showvminfo` query. */
  function Query(replies: seq<Reply>): (a: Answer)
    ensures |replies| == 0 ==> a == Answer(Err(NoReply), replies)
    ensures |replies| > 0 ==> a == Answer(GetMachine(replies[0]), replies[1..])
  {
    if |replies| == 0 then Answer(Err(NoReply), replies) else Answer(GetMachine(replies[0]), replies[1..])
  }

  /** The commands an operation issued, the record afterwards, what it returned and the
      replies it left unread. */
  datatype Run = Run(trace: seq<Command>, machine: Machine, outcome: Outcome, replies: seq<Reply>)

  /** The identifier `Refresh` queries: the name, or the UUID when the name is empty. */
  function Identifier(m: Machine): string
  {
    if m.name == "" then m.uuid else m.name
  }

  /** `Refresh`: re-reads the machine; on success the whole record is replaced, on
      failure it is kept. */
  function Refresh(m: Machine, replies: seq<Reply>): (r: Run)
    ensures r.trace == [ShowInfo(Identifier(m))]
    ensures r.outcome.Pass? <==> |replies| > 0 && GetMachine(replies[0]).Ok?
    ensures r.outcome.Pass? ==> r.machine == GetMachine(replies[0]).value
    ensures r.outcome.Fail? ==> r.machine == m
    ensures |replies| > 0 ==> r.replies == replies[1..]
    ensures |replies| == 0 ==> r.outcome == Fail(NoReply) && r.replies == replies
    ensures |replies| > 0 && r.outcome.Fail? ==> GetMachine(replies[0]).Err? && r.outcome == Fail(GetMachine(replies[0]).error)
  {
    var a := Query(replies);
    match a.result
    case Ok(mm) => Run([ShowInfo(Identifier(m))], mm, Pass, a.replies)
    case Err(e) => Run([ShowInfo(Identifier(m))], m, Fail(e), a.replies)
  }

  /** Prefixes the commands issued before a run. */
  function Prepend(trace: seq<Command>, r: Run): Run
  {
    r.(trace := trace + r.trace)
  }
}

=== FILE: options.dfy ===
/** Option lists: `--key value` pairs as VBoxManage reads them, later occurrences
    overriding earlier ones. */
module Options {
  import opened Base

  /** The flat argument list that spells each (key, value) pair as two arguments. */
  function Flatten<K>(opts: seq<(K, string)>, spell: K -> string): (args: Args)
    ensures |args| == 2 * |opts|
    ensures forall i :: 0 <= i < |opts| ==> args[2 * i] == spell(opts[i].0) && args[2 * i + 1] == opts[i].1
  {
    if |opts| == 0 then []
    else
      var rest := Flatten(opts[1..], spell);
      var args := [spell(opts[0].0), opts[0].1] + rest;
      assert forall i :: 1 <= i < |opts| ==> opts[i] == opts[1..][i - 1];
      args
  }

  /** Flattening distributes over concatenation. */
  lemma {:induction false} FlattenAppend<K>(a: seq<(K, string)>, b: seq<(K, string)>, spell: K -> string)
    ensures Flatten(a + b, spell) == Flatten(a, spell) + Flatten(b, spell)
    decreases |a|
  {
    if |a| == 0 {
      assert a + b == b;
    } else {
      assert (a + b)[1..] == a[1..] + b;
      FlattenAppend(a[1..], b, spell);
    }
  }

  /** One pair flattens to its spelt key and its value. */
  lemma FlattenPair<K>(p: (K, string), spell: K -> string)
    ensures Flatten([p], spell) == [spell(p.0), p.1]
  {
    assert [p][1..] == [];
  }

  /** The value the last pair with key k gives, if any. */
  function Lookup<K(==)>(opts: seq<(K, string)>, k: K): (r: Option<string>)
    ensures r.None? <==> forall i :: 0 <= i < |opts| ==> opts[i].0 != k
    ensures r.Some? ==> exists i :: 0 <= i < |opts| && opts[i] == (k, r.value)
  {
    if |opts| == 0 then None
    else if opts[|opts| - 1].0 == k then Some(opts[|opts| - 1].1)
    else
      var r := Lookup(opts[..|opts| - 1], k);
      assert forall i :: 0 <= i < |opts| - 1 ==> opts[i] == opts[..|opts| - 1][i];
      r
  }

  /** A pair appended last decides its own key and leaves the others alone. */
  lemma LookupLast<K>(opts: seq<(K, string)>, p: (K, string), k: K)
    ensures Lookup(opts + [p], k) == if p.0 == k then Some(p.1) else Lookup(opts, k)
  {
    assert (opts + [p])[..|opts|] == opts;
  }

  /** Pairs appended later take precedence. */
  lemma {:induction false} LookupAppend<K>(a: seq<(K, string)>, b: seq<(K, string)>, k: K)
    ensures Lookup(a + b, k) == if Lookup(b, k).Some? then Lookup(b, k) else Lookup(a, k)
    decreases |b|
  {
    if |b| > 0 {
      assert (a + b)[..|a + b| - 1] == a + b[..|b| - 1];
      LookupAppend(a, b[..|b| - 1], k);
    } else {
      assert a + b == a;
    }
  }

  /** A key that occurs exactly once yields the value paired with it. */
  lemma {:induction false} LookupUnique<K>(opts: seq<(K, string)>, i: nat)
    requires i < |opts|
    requires forall j :: 0 <= j < |opts| && j != i ==> opts[j].0 != opts[i].0
    ensures Lookup(opts, opts[i].0) == Some(opts[i].1)
    decreases |opts|
  {
    if i < |opts| - 1 {
      var init := opts[..|opts| - 1];
      assert init[i] == opts[i];
      LookupUnique(init, i);
    }
  }

  /** A key no pair carries has no value. */
  lemma LookupAbsent<K>(opts: seq<(K, string)>, k: K)
    requires forall p :: p in opts ==> p.0 != k
    ensures Lookup(opts, k) == None
  {
    forall i | 0 <= i < |opts|
      ensures opts[i].0 != k
    {
      assert opts[i] in opts;
    }
  }

  /** A key whose pairs all carry the same value v yields v. */
  lemma LookupOnly<K>(opts: seq<(K, string)>, k: K, v: string)
    requires (k, v) in opts
    requires forall p :: p in opts && p.0 == k ==> p.1 == v
    ensures Lookup(opts, k) == Some(v)
  {
    var i :| 0 <= i < |opts| && opts[i] == (k, v);
    var r := Lookup(opts, k);
    assert r.Some?;
    var j :| 0 <= j < |opts| && opts[j] == (k, r.value);
    assert opts[j] in opts;
  }
}

=== FILE: paths.dfy ===
/** The directory part of a configuration-file path (`filepath.Dir`, simplified to
    forward slashes and no `.`/`..` clean-up). */
module Paths {
  import opened Base

  predicate NoSlash(s: string) { forall j :: 0 <= j < |s| ==> s[j] != '/' }

  /** The position of the last '/' in p, if there is one. */
  function LastSlash(p: string): (r: Option<nat>)
    ensures r.None? <==> NoSlash(p)
    ensures r.Some? ==> r.value < |p| && p[r.value] == '/' && NoSlash(p[r.value + 1..])
  {
    if |p| == 0 then None
    else if p[|p| - 1] == '/' then Some(|p| - 1)
    else
      var r := LastSlash(p[..|p| - 1]);
      if r.Some? then
        assert p[r.value + 1..] == p[..|p| - 1][r.value + 1..] + [p[|p| - 1]];
        r
      else
        r
  }

  /** Drops trailing slashes, keeping a lone root "/". */
  function TrimTrailing(s: string): (r: string)
    ensures r <= s
    ensures |s| >= 1 ==> |r| >= 1
    ensures r == "/" || |r| == 0 || r[|r| - 1] != '/'
    ensures forall j :: |r| <= j < |s| ==> s[j] == '/'
  {
    if |s| > 1 && s[|s| - 1] == '/' then TrimTrailing(s[..|s| - 1]) else s
  }

  /** `filepath.Dir`: everything up to the last slash with trailing slashes dropped,
      or "." when the path has no slash. */
  function Dir(p: string): (r: string)
    ensures NoSlash(p) ==> r == "."
    ensures !NoSlash(p) ==> |r| >= 1 && r <= p && (r == "/" || r[|r| - 1] != '/')
  {
    match LastSlash(p)
    case None => "."
    case Some(i) => TrimTrailing(p[..i + 1])
  }

  /** The directory of `d/f`, for a file name f, is d. */
  lemma DirOfJoin(d: string, f: string)
    requires NoSlash(f)
    requires |d| >= 1 && d[|d| - 1] != '/'
    ensures Dir(d + "/" + f) == d
  {
    var p := d + "/" + f;
    assert p[|d| + 1..] == f;
    assert p[|d|] == '/';
    assert forall j :: |d| < j < |p| ==> p[j] == f[j - |d| - 1];
    var i := LastSlash(p).value;
    assert i == |d|;
    assert p[..i + 1] == d + "/";
    assert (d + "/")[..|d|] == d;
  }

  /** A file directly under the root lies in "/". */
  lemma DirOfRootFile(f: string)
    requires NoSlash(f)
    ensures Dir("/" + f) == "/"
  {
    var p := "/" + f;
    assert forall j :: 1 <= j < |p| ==> p[j] == f[j - 1];
    assert p[0] == '/';
    var i := LastSlash(p).value;
    assert i == 0;
    assert p[..1] == "/";
  }
}

=== FILE: peripherals.dfy ===
/** The peripheral operations: NAT port forwarding, network cards and storage. Each
    issues one VBoxManage invocation built from its arguments and the machine's name,
    and none of them touches the record. */
module Peripherals {
  import opened Base
  import opened Decimal
  import opened Flags
  import opened Options
  import opened Commands
  import opened Machines

  /** The pair as a one-element option list when c holds, no options otherwise. */
  function When<K>(c: bool, key: K, value: string): (opts: seq<(K, string)>)
    ensures c ==> opts == [(key, value)]
    ensures !c ==> opts == []
  {
    if c then [(key, value)] else []
  }

  /** The fields of a network card `SetNIC` uses. */
  datatype Nic = Nic(network: string, hardware: string, hostonlyAdapter: string)

  /** The per-card options of `modifyvm`, each carrying the card's number. */
  datatype NicKey = NicMode(n: int) | NicType(n: int) | CableConnected(n: int) | HostonlyAdapter(n: int)

  function NicSpelling(k: NicKey): string
  {
    match k
    case NicMode(n) => "--nic" + FormatInt(n)
    case NicType(n) => "--nictype" + FormatInt(n)
    case CableConnected(n) => "--cableconnected" + FormatInt(n)
    case HostonlyAdapter(n) => "--hostonlyadapter" + FormatInt(n)
  }

  /** The options `SetNIC` writes for card n; the cable is always connected. */
  function NicOptions(n: int, nic: Nic): seq<(NicKey, string)>
  {
    [(NicMode(n), nic.network), (NicType(n), nic.hardware), (CableConnected(n), "on")]
      + When(nic.network == "hostonly", HostonlyAdapter(n), nic.hostonlyAdapter)
  }

  function SetNicArgs(name: string, n: int, nic: Nic): (args: Args)
    ensures |args| == if nic.network == "hostonly" then 10 else 8
    ensures args[..2] == ["modifyvm", name]
    ensures forall i :: 0 <= i < |NicOptions(n, nic)| ==>
              args[2 + 2 * i] == NicSpelling(NicOptions(n, nic)[i].0) && args[3 + 2 * i] == NicOptions(n, nic)[i].1
  {
    ["modifyvm", name] + Flatten(NicOptions(n, nic), NicSpelling)
  }

  /** The words of SetNIC's `modifyvm`: mode, NIC type and a connected cable for card n,
      then the host-only adapter when the mode is host-only. */
  lemma SetNicArgsWords(name: string, n: int, nic: Nic)
    ensures var w := FormatInt(n);
            SetNicArgs(name, n, nic)[2..8] == ["--nic" + w, nic.network, "--nictype" + w, nic.hardware, "--cableconnected" + w, "on"]
    ensures nic.network == "hostonly" ==>
              SetNicArgs(name, n, nic)[8..] == ["--hostonlyadapter" + FormatInt(n), nic.hostonlyAdapter]
  {
    var args := SetNicArgs(name, n, nic);
    var opts := NicOptions(n, nic);
    var w := FormatInt(n);
    assert opts[0] == (NicMode(n), nic.network) && opts[1] == (NicType(n), nic.hardware) && opts[2] == (CableConnected(n), "on");
    assert args[2] == "--nic" + w && args[3] == nic.network;
    assert args[4] == "--nictype" + w && args[5] == nic.hardware;
    assert args[6] == "--cableconnected" + w && args[7] == "on";
    if nic.network == "hostonly" {
      assert opts[3] == (HostonlyAdapter(n), nic.hostonlyAdapter);
      assert args[8] == "--hostonlyadapter" + w && args[9] == nic.hostonlyAdapter;
    }
  }

  /** `SetNIC`: configures the n-th network card. */
  function SetNic(m: Machine, vbm: Executor, n: int, nic: Nic): (r: Step)
    ensures r.trace == [Invoke(SetNicArgs(m.name, n, nic))]
    ensures r.outcome == vbm(SetNicArgs(m.name, n, nic))
  {
    Issue(vbm, Invoke(SetNicArgs(m.name, n, nic)))
  }

  /** VBoxManage reads the card's mode, model and cable back from SetNIC's options,
      and finds a host-only adapter exactly when the mode is host-only. */
  lemma SetNicReadBack(n: int, nic: Nic)
    ensures var opts := NicOptions(n, nic);
            && Lookup(opts, NicMode(n)) == Some(nic.network)
            && Lookup(opts, NicType(n)) == Some(nic.hardware)
            && Lookup(opts, CableConnected(n)) == Some("on")
    ensures var opts := NicOptions(n, nic);
            nic.network == "hostonly" ==> Lookup(opts, HostonlyAdapter(n)) == Some(nic.hostonlyAdapter)
    ensures var opts := NicOptions(n, nic);
            nic.network != "hostonly" ==> Lookup(opts, HostonlyAdapter(n)) == None
  {
    var opts := NicOptions(n, nic);
    var fixed := [(NicMode(n), nic.network), (NicType(n), nic.hardware), (CableConnected(n), "on")];
    if nic.network == "hostonly" {
      assert opts == fixed + [(HostonlyAdapter(n), nic.hostonlyAdapter)];
      LookupOnly(opts, HostonlyAdapter(n), nic.hostonlyAdapter);
    } else {
      assert opts == fixed;
      LookupAbsent(opts, HostonlyAdapter(n));
    }
    LookupOnly(opts, NicMode(n), nic.network);
    LookupOnly(opts, NicType(n), nic.hardware);
    LookupOnly(opts, CableConnected(n), "on");
  }

  /** Every option SetNIC writes is spelt with the card's number. */
  lemma NicSpellingNumbered(k: NicKey)
    ensures var s := NicSpelling(k); var w := FormatInt(k.n);
            |s| > |w| && s[..2] == "--" && s[|s| - |w|..] == w
  {
  }

  /** The fields of a storage controller `AddStorageCtl` uses. */
  datatype StorageController = StorageController(sysBus: string, ports: int, chipset: string, hostIoCache: bool, bootable: bool)

  /** The options of `storagectl`. */
  datatype CtlKey = CtlName | Add | PortCount | Controller | HostIoCache | Bootable

  function CtlSpelling(k: CtlKey): string
  {
    match k
    case CtlName => "--name"
    case Add => "--add"
    case PortCount => "--portcount"
    case Controller => "--controller"
    case HostIoCache => "--hostiocache"
    case Bootable => "--bootable"
  }

  /** The options `AddStorageCtl` writes: the bus, port count and chipset only when
      set, the two switches always. */
  function StorageCtlOptions(name: string, ctl: StorageController): seq<(CtlKey, string)>
  {
    [(CtlName, name)]
      + When(ctl.sysBus != "", Add, ctl.sysBus)
      + When(ctl.ports > 0, PortCount, FormatInt(ctl.ports))
      + When(ctl.chipset != "", Controller, ctl.chipset)
      + [(HostIoCache, OnOff(ctl.hostIoCache)), (Bootable, OnOff(ctl.bootable))]
  }

  function AddStorageCtlArgs(vm: string, name: string, ctl: StorageController): (args: Args)
    ensures |args| == 8 + (if ctl.sysBus != "" then 2 else 0) + (if ctl.ports > 0 then 2 else 0)
                        + (if ctl.chipset != "" then 2 else 0)
    ensures args[..2] == ["storagectl", vm]
    ensures forall i :: 0 <= i < |StorageCtlOptions(name, ctl)| ==>
              args[2 + 2 * i] == CtlSpelling(StorageCtlOptions(name, ctl)[i].0) && args[3 + 2 * i] == StorageCtlOptions(name, ctl)[i].1
  {
    ["storagectl", vm] + Flatten(StorageCtlOptions(name, ctl), CtlSpelling)
  }

  /** The words of AddStorageCtl's `storagectl`: the name, then `--add` with the bus,
      `--portcount` with a positive count and `--controller` with the chipset, each only
      when set, then the two switches. */
  lemma AddStorageCtlArgsWords(vm: string, name: string, ctl: StorageController)
    ensures AddStorageCtlArgs(vm, name, ctl)[2..] ==
              ["--name", name]
              + (if ctl.sysBus != "" then ["--add", ctl.sysBus] else [])
              + (if ctl.ports > 0 then ["--portcount", FormatInt(ctl.ports)] else [])
              + (if ctl.chipset != "" then ["--controller", ctl.chipset] else [])
              + ["--hostiocache", OnOff(ctl.hostIoCache), "--bootable", OnOff(ctl.bootable)]
  {
    var a := [(CtlName, name)];
    var b := When(ctl.sysBus != "", Add, ctl.sysBus);
    var c := When(ctl.ports > 0, PortCount, FormatInt(ctl.ports));
    var d := When(ctl.chipset != "", Controller, ctl.chipset);
    var e := [(HostIoCache, OnOff(ctl.hostIoCache)), (Bootable, OnOff(ctl.bootable))];
    FlattenFive(a, b, c, d, e, CtlSpelling);
    FlattenPair(a[0], CtlSpelling);
    FlattenWhen(ctl.sysBus != "", Add, ctl.sysBus, CtlSpelling);
    FlattenWhen(ctl.ports > 0, PortCount, FormatInt(ctl.ports), CtlSpelling);
    FlattenWhen(ctl.chipset != "", Controller, ctl.chipset, CtlSpelling);
    assert Flatten(e, CtlSpelling) == ["--hostiocache", OnOff(ctl.hostIoCache), "--bootable", OnOff(ctl.bootable)];
  }

  /** Flattening five pieces flattens each in turn. */
  lemma FlattenFive<K>(a: seq<(K, string)>, b: seq<(K, string)>, c: seq<(K, string)>, d: seq<(K, string)>,
                       e: seq<(K, string)>, spell: K -> string)
    ensures Flatten(a + b + c + d + e, spell) ==
              Flatten(a, spell) + Flatten(b, spell) + Flatten(c, spell) + Flatten(d, spell) + Flatten(e, spell)
  {
    FlattenAppend(a + b + c + d, e, spell);
    FlattenAppend(a + b + c, d, spell);
    FlattenAppend(a + b, c, spell);
    FlattenAppend(a, b, spell);
  }

  /** An optional pair flattens to its two words, or to nothing. */
  lemma FlattenWhen<K>(cond: bool, key: K, value: string, spell: K -> string)
    ensures Flatten(When(cond, key, value), spell) == if cond then [spell(key), value] else []
  {
    if cond { FlattenPair((key, value), spell); }
  }

  /** `AddStorageCtl`: adds a storage controller with the given name. */
  function AddStorageCtl(m: Machine, vbm: Executor, name: string, ctl: StorageController): (r: Step)
    ensures r.trace == [Invoke(AddStorageCtlArgs(m.name, name, ctl))]
    ensures r.outcome == vbm(AddStorageCtlArgs(m.name, name, ctl))
  {
    Issue(vbm, Invoke(AddStorageCtlArgs(m.name, name, ctl)))
  }

  /** How VBoxManage reads a controller from `storagectl` options: an absent bus or
      chipset is empty, an absent port count zero, a switch on only when it says so. */
  function ReadStorageCtl(opts: seq<(CtlKey, string)>): (Option<string>, Option<StorageController>)
  {
    var ports := match Lookup(opts, PortCount)
                 case None => Some(0)
                 case Some(t) => ReadInt(t);
    (Lookup(opts, CtlName),
     if ports.None? then None
     else Some(StorageController(Lookup(opts, Add).GetOr(""), ports.value, Lookup(opts, Controller).GetOr(""),
                                 Lookup(opts, HostIoCache) == Some("on"), Lookup(opts, Bootable) == Some("on"))))
  }

  /** Round trip: the controller `AddStorageCtl` describes is read back, except that a
      port count that is not positive is not written and so reads back as zero. */
  lemma StorageCtlReadBack(name: string, ctl: StorageController)
    ensures ReadStorageCtl(StorageCtlOptions(name, ctl)) ==
              (Some(name), Some(ctl.(ports := if ctl.ports > 0 then ctl.ports else 0)))
  {
    var opts := StorageCtlOptions(name, ctl);
    StorageCtlLookup(name, ctl, CtlName);
    StorageCtlLookup(name, ctl, Add);
    StorageCtlLookup(name, ctl, PortCount);
    StorageCtlLookup(name, ctl, Controller);
    StorageCtlLookup(name, ctl, HostIoCache);
    StorageCtlLookup(name, ctl, Bootable);
    ReadFormatInt(ctl.ports);
    ReadStorageCtlFrom(opts, name, ctl.(ports := if ctl.ports > 0 then ctl.ports else 0));
  }

  /** The value AddStorageCtl writes for each option, None for one it leaves out. */
  function CtlValue(name: string, ctl: StorageController, k: CtlKey): Option<string>
  {
    match k
    case CtlName => Some(name)
    case Add => if ctl.sysBus != "" then Some(ctl.sysBus) else None
    case PortCount => if ctl.ports > 0 then Some(FormatInt(ctl.ports)) else None
    case Controller => if ctl.chipset != "" then Some(ctl.chipset) else None
    case HostIoCache => Some(OnOff(ctl.hostIoCache))
    case Bootable => Some(OnOff(ctl.bootable))
  }

  /** Every option of AddStorageCtl's list looks up to the value written for it. */
  lemma StorageCtlLookup(name: string, ctl: StorageController, k: CtlKey)
    ensures Lookup(StorageCtlOptions(name, ctl), k) == CtlValue(name, ctl, k)
  {
    var opts := StorageCtlOptions(name, ctl);
    match CtlValue(name, ctl, k)
    case Some(v) => LookupOnly(opts, k, v);
    case None => LookupAbsent(opts, k);
  }

  /** ReadStorageCtl gives the name and c when each lookup gives their parts. */
  lemma ReadStorageCtlFrom(opts: seq<(CtlKey, string)>, name: string, c: StorageController)
    requires Lookup(opts, CtlName) == Some(name)
    requires Lookup(opts, Add).GetOr("") == c.sysBus && Lookup(opts, Controller).GetOr("") == c.chipset
    requires c.ports >= 0
    requires Lookup(opts, PortCount) == (if c.ports > 0 then Some(FormatInt(c.ports)) else None)
    requires ReadInt(FormatInt(c.ports)) == Some(c.ports)
    requires Lookup(opts, HostIoCache) == Some(OnOff(c.hostIoCache)) && Lookup(opts, Bootable) == Some(OnOff(c.bootable))
    ensures ReadStorageCtl(opts) == (Some(name), Some(c))
  {
  }

  function DelStorageCtlArgs(vm: string, name: string): (args: Args)
    ensures |args| == 5 && args[..2] == ["storagectl", vm] && args[4] == "--remove"
  {
    ["storagectl", vm] + Flatten([(CtlName, name)], CtlSpelling) + ["--remove"]
  }

  /** `DelStorageCtl`: removes the named storage controller. */
  function DelStorageCtl(m: Machine, vbm: Executor, name: string): (r: Step)
    ensures r.trace == [Invoke(DelStorageCtlArgs(m.name, name))]
    ensures r.outcome == vbm(DelStorageCtlArgs(m.name, name))
  {
    Issue(vbm, Invoke(DelStorageCtlArgs(m.name, name)))
  }

  /** Removing a controller addresses it by the same `--name` option that added it. */
  lemma DelStorageCtlMatchesAdd(vm: string, name: string, ctl: StorageController)
    ensures DelStorageCtlArgs(vm, name)[..4] == AddStorageCtlArgs(vm, name, ctl)[..4]
    ensures DelStorageCtlArgs(vm, name)[2..4] == ["--name", name]
  {
    var opts := StorageCtlOptions(name, ctl);
    assert opts[0] == (CtlName, name);
  }

  /** The fields of a storage medium `AttachStorage` uses. */
  datatype StorageMedium = StorageMedium(port: int, device: int, driveType: string, medium: string)

  /** The options of `storageattach`. */
  datatype AttachKey = StorageCtl | Port | Device | DriveType | Medium

  function AttachSpelling(k: AttachKey): string
  {
    match k
    case StorageCtl => "--storagectl"
    case Port => "--port"
    case Device => "--device"
    case DriveType => "--type"
    case Medium => "--medium"
  }

  function AttachOptions(ctlName: string, medium: StorageMedium): seq<(AttachKey, string)>
  {
    [(StorageCtl, ctlName), (Port, FormatInt(medium.port)), (Device, FormatInt(medium.device)),
     (DriveType, medium.driveType), (Medium, medium.medium)]
  }

  function AttachStorageArgs(vm: string, ctlName: string, medium: StorageMedium): (args: Args)
    ensures |args| == 12 && args[..2] == ["storageattach", vm]
    ensures forall i :: 0 <= i < 5 ==>
              args[2 + 2 * i] == AttachSpelling(AttachOptions(ctlName, medium)[i].0) && args[3 + 2 * i] == AttachOptions(ctlName, medium)[i].1
  {
    ["storageattach", vm] + Flatten(AttachOptions(ctlName, medium), AttachSpelling)
  }

  /** The words of AttachStorage's `storageattach`: controller, port, device, type and
      medium, in that order. */
  lemma AttachStorageArgsWords(vm: string, ctlName: string, medium: StorageMedium)
    ensures AttachStorageArgs(vm, ctlName, medium)[2..] ==
              ["--storagectl", ctlName, "--port", FormatInt(medium.port), "--device", FormatInt(medium.device),
               "--type", medium.driveType, "--medium", medium.medium]
  {
    var args := AttachStorageArgs(vm, ctlName, medium);
    var opts := AttachOptions(ctlName, medium);
    assert args[2] == "--storagectl" && args[3] == ctlName by { assert opts[0] == (StorageCtl, ctlName); }
    assert args[4] == "--port" && args[5] == FormatInt(medium.port) by { assert opts[1] == (Port, FormatInt(medium.port)); }
    assert args[6] == "--device" && args[7] == FormatInt(medium.device) by { assert opts[2] == (Device, FormatInt(medium.device)); }
    assert args[8] == "--type" && args[9] == medium.driveType by { assert opts[3] == (DriveType, medium.driveType); }
    assert args[10] == "--medium" && args[11] == medium.medium by { assert opts[4] == (Medium, medium.medium); }
  }

  /** `AttachStorage`: attaches a medium to a port of the named controller. */
  function AttachStorage(m: Machine, vbm: Executor, ctlName: string, medium: StorageMedium): (r: Step)
    ensures r.trace == [Invoke(AttachStorageArgs(m.name, ctlName, medium))]
    ensures r.outcome == vbm(AttachStorageArgs(m.name, ctlName, medium))
  {
    Issue(vbm, Invoke(AttachStorageArgs(m.name, ctlName, medium)))
  }

  /** How VBoxManage reads an attachment from `storageattach` options. */
  function ReadAttachment(opts: seq<(AttachKey, string)>): Option<(string, StorageMedium)>
  {
    match (Lookup(opts, StorageCtl), Lookup(opts, Port), Lookup(opts, Device), Lookup(opts, DriveType), Lookup(opts, Medium))
    case (Some(c), Some(p), Some(d), Some(t), Some(f)) =>
      if ReadInt(p).Some? && ReadInt(d).Some? then Some((c, StorageMedium(ReadInt(p).value, ReadInt(d).value, t, f)))
      else None
    case _ => None
  }

  /** Round trip: the controller and medium `AttachStorage` names are read back. */
  lemma AttachReadBack(ctlName: string, medium: StorageMedium)
    ensures ReadAttachment(AttachOptions(ctlName, medium)) == Some((ctlName, medium))
  {
    var opts := AttachOptions(ctlName, medium);
    LookupUnique(opts, 0);
    LookupUnique(opts, 1);
    LookupUnique(opts, 2);
    LookupUnique(opts, 3);
    LookupUnique(opts, 4);
    ReadFormatInt(medium.port);
    ReadFormatInt(medium.device);
  }

  /** The `controlvm` word selecting the n-th card's NAT rules. */
  function NatPfWord(n: int): (w: string)
    ensures |w| > 5 && w[..5] == "natpf" && ReadInt(w[5..]) == Some(n)
  {
    var w := "natpf" + FormatInt(n);
    assert w[5..] == FormatInt(n);
    ReadFormatInt(n);
    w
  }

  /** `AddNATPF`: the rule's name, a comma, then the formatted rule. The rule's own
      text comes from `PFRule.Format`, which is not part of this model. */
  function AddNatPfArgs(vm: string, n: int, name: string, ruleText: string): (args: Args)
    ensures |args| == 4 && args[..3] == ["controlvm", vm, NatPfWord(n)] && args[3] == name + "," + ruleText
  {
    ["controlvm", vm, NatPfWord(n), name + "," + ruleText]
  }

  function AddNatPf(m: Machine, vbm: Executor, n: int, name: string, ruleText: string): (r: Step)
    ensures r.trace == [Invoke(AddNatPfArgs(m.name, n, name, ruleText))]
    ensures r.outcome == vbm(AddNatPfArgs(m.name, n, name, ruleText))
  {
    Issue(vbm, Invoke(AddNatPfArgs(m.name, n, name, ruleText)))
  }

  /** The text before the first comma, and the text after it. */
  function SplitAtComma(s: string): (parts: (string, Option<string>))
    ensures parts.1.None? ==> parts.0 == s && ',' !in s
    ensures parts.1.Some? ==> s == parts.0 + "," + parts.1.value && ',' !in parts.0
  {
    if |s| == 0 then ("", None)
    else if s[0] == ',' then ("", Some(s[1..]))
    else
      var rest := SplitAtComma(s[1..]);
      (assert s == [s[0]] + s[1..];
       ([s[0]] + rest.0, rest.1))
  }

  /** Round trip: a rule name without a comma is recovered from AddNATPF's last argument,
      together with the rule text. */
  lemma {:induction false} NatPfRuleReadBack(name: string, ruleText: string)
    requires ',' !in name
    ensures SplitAtComma(name + "," + ruleText) == (name, Some(ruleText))
  {
    var s := name + "," + ruleText;
    if |name| == 0 {
      assert s[1..] == ruleText;
    } else {
      assert name[0] in name;
      assert s[1..] == name[1..] + "," + ruleText;
      NatPfRuleReadBack(name[1..], ruleText);
      assert [name[0]] + name[1..] == name;
    }
  }

  function DelNatPfArgs(vm: string, n: int, name: string): (args: Args)
    ensures |args| == 5 && args[..3] == ["controlvm", vm, NatPfWord(n)] && args[3..] == ["delete", name]
  {
    ["controlvm", vm, NatPfWord(n), "delete", name]
  }

  /** `DelNATPF`: deletes the named rule of the n-th card. */
  function DelNatPf(m: Machine, vbm: Executor, n: int, name: string): (r: Step)
    ensures r.trace == [Invoke(DelNatPfArgs(m.name, n, name))]
    ensures r.outcome == vbm(DelNatPfArgs(m.name, n, name))
  {
    Issue(vbm, Invoke(DelNatPfArgs(m.name, n, name)))
  }

  /** Deleting a rule addresses the same card as adding it did, and names the rule by
      the name the add wrote before its comma. */
  lemma DelNatPfMatchesAdd(vm: string, n: int, name: string, ruleText: string)
    requires ',' !in name
    ensures var add := AddNatPfArgs(vm, n, name, ruleText);
            var del := DelNatPfArgs(vm, n, name);
            add[..3] == del[..3] && SplitAtComma(add[3]).0 == del[4]
  {
    NatPfRuleReadBack(name, ruleText);
  }
}

=== FILE: settings.dfy ===
/** `Modify`: the `modifyvm` argument list built from the record's settings, and how
    VBoxManage reads those settings back out of it. */
module Settings {
  import opened Base
  import opened Decimal
  import opened Flags
  import opened Options
  import opened Commands
  import opened Machines

  /** A position in the feature table. */
  type FeatureIndex = i: nat | i < FeatureCount

  /** A boot slot: `--boot1` to `--boot4`. */
  type BootSlot = j: nat | 1 <= j <= 4 witness 1

  /** The options `Modify` writes. */
  datatype Key =
    | Firmware | BiosLogoFadeIn | BiosLogoFadeOut | BiosLogoDisplayTime | BiosBootMenu
    | OsType | Cpus | Memory | Vram
    | Feature(index: FeatureIndex)
    | Boot(slot: BootSlot)

  /** The option as VBoxManage spells it. */
  function Spelling(k: Key): string
  {
    match k
    case Firmware => "--firmware"
    case BiosLogoFadeIn => "--bioslogofadein"
    case BiosLogoFadeOut => "--bioslogofadeout"
    case BiosLogoDisplayTime => "--bioslogodisplaytime"
    case BiosBootMenu => "--biosbootmenu"
    case OsType => "--ostype"
    case Cpus => "--cpus"
    case Memory => "--memory"
    case Vram => "--vram"
    case Feature(i) => "--" + Features[i].0
    case Boot(j) => "--boot" + FormatNat(j)
  }

  /** The fixed BIOS settings every `Modify` writes. */
  const BiosOptions: seq<(Key, string)> := [
    (Firmware, "bios"), (BiosLogoFadeIn, "off"), (BiosLogoFadeOut, "off"),
    (BiosLogoDisplayTime, "0"), (BiosBootMenu, "disabled")
  ]

  function BasicOptions(m: Machine): seq<(Key, string)>
  {
    [(OsType, m.osType), (Cpus, FormatNat(m.cpus)), (Memory, FormatNat(m.memory)), (Vram, FormatNat(m.vram))]
  }

  /** One on/off option per feature, in table order. */
  function FeatureOptions(f: Flag): (opts: seq<(Key, string)>)
    ensures |opts| == FeatureCount
    ensures forall i :: 0 <= i < FeatureCount ==> opts[i] == (Feature(i), Get(f, Features[i].1))
  {
    seq(FeatureCount, (i: nat) requires i < FeatureCount => (Feature(i), Get(f, Features[i].1)))
  }

  /** The boot order, one slot per device; devices beyond the fourth are dropped. */
  function BootOptions(order: seq<string>): (opts: seq<(Key, string)>)
    ensures |opts| == if |order| < 4 then |order| else 4
    ensures forall i :: 0 <= i < |opts| ==> opts[i] == (Boot(i + 1), order[i])
  {
    var n := if |order| < 4 then |order| else 4;
    seq(n, (i: nat) requires i < n => (Boot(i + 1), order[i]))
  }

  function ModifyOptions(m: Machine): seq<(Key, string)>
  {
    BiosOptions + BasicOptions(m) + FeatureOptions(m.flag) + BootOptions(m.bootOrder)
  }

  /** The argument list of `Modify`: the command word, the machine's name, then every
      option spelt out followed by its value. */
  function ModifyArgs(m: Machine): (args: Args)
    ensures |args| == 50 + 2 * |KeptBoot(m.bootOrder)|
    ensures args[..2] == ["modifyvm", m.name]
    ensures forall i :: 0 <= i < |ModifyOptions(m)| ==>
              args[2 + 2 * i] == Spelling(ModifyOptions(m)[i].0) && args[3 + 2 * i] == ModifyOptions(m)[i].1
  {
    ["modifyvm", m.name] + Flatten(ModifyOptions(m), Spelling)
  }

  /** The fixed BIOS settings come first, as Go's `Modify` lists them. */
  lemma ModifyArgsBios(m: Machine)
    ensures ModifyArgs(m)[2..12] == ["--firmware", "bios", "--bioslogofadein", "off", "--bioslogofadeout", "off",
                                     "--bioslogodisplaytime", "0", "--biosbootmenu", "disabled"]
  {
    HeadPair(m, 0); HeadPair(m, 1); HeadPair(m, 2); HeadPair(m, 3); HeadPair(m, 4);
  }

  /** Then the OS type and the three numbers in decimal. */
  lemma ModifyArgsNumbers(m: Machine)
    ensures ModifyArgs(m)[12..20] == ["--ostype", m.osType, "--cpus", FormatNat(m.cpus),
                                      "--memory", FormatNat(m.memory), "--vram", FormatNat(m.vram)]
  {
    var args := ModifyArgs(m);
    HeadPair(m, 5); HeadPair(m, 6); HeadPair(m, 7); HeadPair(m, 8);
    assert args[12] == "--ostype" && args[13] == m.osType;
    assert args[14] == "--cpus" && args[15] == FormatNat(m.cpus);
    assert args[16] == "--memory" && args[17] == FormatNat(m.memory);
    assert args[18] == "--vram" && args[19] == FormatNat(m.vram);
  }

  lemma HeadPair(m: Machine, i: nat)
    requires i < 9
    ensures ModifyArgs(m)[2 + 2 * i] == Spelling((BiosOptions + BasicOptions(m))[i].0)
    ensures ModifyArgs(m)[3 + 2 * i] == (BiosOptions + BasicOptions(m))[i].1
  {
    assert ModifyOptions(m)[i] == (BiosOptions + BasicOptions(m))[i];
  }

  /** Then one `--<feature> on|off` pair per feature, in table order. */
  lemma ModifyArgsFeatures(m: Machine, i: nat)
    requires i < FeatureCount
    ensures ModifyArgs(m)[20 + 2 * i] == "--" + Features[i].0
    ensures ModifyArgs(m)[21 + 2 * i] == Get(m.flag, Features[i].1)
  {
    var prefix := BiosOptions + BasicOptions(m);
    var feats := FeatureOptions(m.flag);
    assert |prefix| == 9;
    assert ModifyOptions(m)[9 + i] == (prefix + feats)[9 + i] == feats[i];
  }

  /** Then `--boot<j> <device>` for the first four devices. */
  lemma ModifyArgsBoot(m: Machine, j: nat)
    requires j < |KeptBoot(m.bootOrder)|
    ensures ModifyArgs(m)[50 + 2 * j] == "--boot" + FormatNat(j + 1)
    ensures ModifyArgs(m)[51 + 2 * j] == m.bootOrder[j]
  {
    var prefix := BiosOptions + BasicOptions(m) + FeatureOptions(m.flag);
    var boots := BootOptions(m.bootOrder);
    var opts := ModifyOptions(m);
    assert |prefix| == 24;
    assert opts[24 + j] == boots[j] == (Boot(j + 1), m.bootOrder[j]);
    var args := ModifyArgs(m);
    assert args[2 + 2 * (24 + j)] == Spelling(opts[24 + j].0) && args[3 + 2 * (24 + j)] == opts[24 + j].1;
  }

  /** `Modify`: writes every setting of the record with one `modifyvm`, then refreshes. */
  function Modify(m: Machine, vbm: Executor, replies: seq<Reply>): (r: Run)
    ensures |r.trace| >= 1 && r.trace[0] == Invoke(ModifyArgs(m))
    ensures vbm(ModifyArgs(m)).Fail? ==> r == Run([Invoke(ModifyArgs(m))], m, vbm(ModifyArgs(m)), replies)
    ensures vbm(ModifyArgs(m)).Pass? ==> r == Prepend([Invoke(ModifyArgs(m))], Refresh(m, replies))
    ensures vbm(ModifyArgs(m)).Pass? && |replies| > 0 && r.outcome.Fail? ==> r.outcome == Fail(GetMachine(replies[0]).error)
  {
    var c := Invoke(ModifyArgs(m));
    if vbm(Argv(c)).Fail? then Run([c], m, vbm(Argv(c)), replies)
    else Prepend([c], Refresh(m, replies))
  }

  /** The settings `Modify` writes, as the record holds them: the features are the
      feature-table bits set in the flag, the boot order at most four devices. */
  datatype Config = Config(osType: string, cpus: nat, memory: nat, vram: nat, features: set<FeatureIndex>, boot: seq<string>)

  /** The boot order `Modify` keeps: the first four devices. */
  function KeptBoot(order: seq<string>): (kept: seq<string>)
    ensures |kept| <= 4 && kept <= order
    ensures |order| <= 4 ==> kept == order
  {
    if |order| < 4 then order else order[..4]
  }

  /** The flag holds the bit of feature i. */
  predicate HasFeature(f: Flag, i: FeatureIndex) { Has(f, i as BitIndex) }

  function ConfigOf(m: Machine): Config
  {
    Config(m.osType, m.cpus, m.memory, m.vram,
           (set i: FeatureIndex | HasFeature(m.flag, i)),
           KeptBoot(m.bootOrder))
  }

  /** How VBoxManage reads the boot order: slots from j on, up to the first absent one. */
  function BootsFrom(opts: seq<(Key, string)>, j: BootSlot): seq<string>
    decreases 4 - j
  {
    match Lookup(opts, Boot(j))
    case None => []
    case Some(d) => [d] + (if j == 4 then [] else BootsFrom(opts, j + 1))
  }

  /** The settings an option list gives, later options overriding earlier ones; a
      number that does not parse is an error. */
  function ReadBack(opts: seq<(Key, string)>): Result<Config>
  {
    var cpus :- ParseUint32(Lookup(opts, Cpus).GetOr(""));
    var memory :- ParseUint32(Lookup(opts, Memory).GetOr(""));
    var vram :- ParseUint32(Lookup(opts, Vram).GetOr(""));
    Ok(Config(Lookup(opts, OsType).GetOr(""), cpus, memory, vram, FeaturesOn(opts), BootsFrom(opts, 1)))
  }

  /** The features whose option reads "on". */
  function FeaturesOn(opts: seq<(Key, string)>): set<FeatureIndex>
  {
    set i: FeatureIndex | Lookup(opts, Feature(i)) == Some("on")
  }

  /** A key that no pair of b carries is looked up in a alone. */
  lemma LookupSkip(a: seq<(Key, string)>, b: seq<(Key, string)>, k: Key)
    requires forall i :: 0 <= i < |b| ==> b[i].0 != k
    ensures Lookup(a + b, k) == Lookup(a, k)
  {
    LookupAppend(a, b, k);
  }

  lemma LookupBoot(order: seq<string>, a: seq<(Key, string)>, j: BootSlot)
    ensures Lookup(a + BootOptions(order), Boot(j)) ==
              if j <= |BootOptions(order)| then Some(order[j - 1]) else Lookup(a, Boot(j))
  {
    var b := BootOptions(order);
    LookupAppend(a, b, Boot(j));
    if j <= |b| {
      LookupUnique(b, j - 1);
    }
  }

  /** No option before the boot slots names a boot slot. */
  lemma NoBootBefore(m: Machine, j: BootSlot)
    ensures Lookup(BiosOptions + BasicOptions(m) + FeatureOptions(m.flag), Boot(j)) == None
  {
    var a := BiosOptions + BasicOptions(m);
    LookupSkip(a, FeatureOptions(m.flag), Boot(j));
    forall i | 0 <= i < |a|
      ensures a[i].0 != Boot(j)
    {
    }
  }

  /** Boot slot j of `Modify`'s options holds the j-th kept device, if there is one. */
  lemma BootLookup(m: Machine, j: BootSlot)
    ensures var kept := KeptBoot(m.bootOrder);
            Lookup(ModifyOptions(m), Boot(j)) == if j <= |kept| then Some(kept[j - 1]) else None
  {
    NoBootBefore(m, j);
    LookupBoot(m.bootOrder, BiosOptions + BasicOptions(m) + FeatureOptions(m.flag), j);
  }

  /** Every boot slot of opts holds the matching kept device, or nothing past them. */
  predicate SlotsHold(opts: seq<(Key, string)>, kept: seq<string>)
  {
    forall j: BootSlot :: Lookup(opts, Boot(j)) == if j <= |kept| then Some(kept[j - 1]) else None
  }

  /** Reading the boot slots from slot j on gives the devices they hold from position
      j - 1 on. */
  lemma {:induction false} BootsFromSlots(opts: seq<(Key, string)>, kept: seq<string>, j: BootSlot)
    requires |kept| <= 4 && j <= |kept| + 1 && SlotsHold(opts, kept)
    ensures BootsFrom(opts, j) == kept[j - 1..]
    decreases 4 - j
  {
    BootsFromStep(opts, j);
    assert Lookup(opts, Boot(j)) == if j <= |kept| then Some(kept[j - 1]) else None;
    if j <= |kept| && j < 4 {
      BootsFromSlots(opts, kept, j + 1);
      assert kept[j - 1..] == [kept[j - 1]] + kept[j..];
    }
  }

  /** Reading the boot slots of `Modify`'s options from slot j on gives the kept
      devices from position j - 1 on. */
  lemma BootsReadBack(m: Machine, j: BootSlot)
    requires j <= |KeptBoot(m.bootOrder)| + 1
    ensures BootsFrom(ModifyOptions(m), j) == KeptBoot(m.bootOrder)[j - 1..]
  {
    forall k: BootSlot
      ensures Lookup(ModifyOptions(m), Boot(k)) == if k <= |KeptBoot(m.bootOrder)| then Some(KeptBoot(m.bootOrder)[k - 1]) else None
    {
      BootLookup(m, k);
    }
    BootsFromSlots(ModifyOptions(m), KeptBoot(m.bootOrder), j);
  }

  /** One slot of the boot reading. */
  lemma BootsFromStep(opts: seq<(Key, string)>, j: BootSlot)
    ensures Lookup(opts, Boot(j)).None? ==> BootsFrom(opts, j) == []
    ensures Lookup(opts, Boot(j)).Some? && j == 4 ==> BootsFrom(opts, j) == [Lookup(opts, Boot(j)).value]
    ensures Lookup(opts, Boot(j)).Some? && j < 4 ==> BootsFrom(opts, j) == [Lookup(opts, Boot(j)).value] + BootsFrom(opts, j + 1)
  {
  }

  /** The value `Modify` writes for feature i is its flag bit's on/off token. */
  lemma FeatureLookup(m: Machine, i: FeatureIndex)
    ensures Lookup(ModifyOptions(m), Feature(i)) == Some(Get(m.flag, Features[i].1))
  {
    var a := BiosOptions + BasicOptions(m);
    var feats := FeatureOptions(m.flag);
    var boots := BootOptions(m.bootOrder);
    LookupSkip(a + feats, boots, Feature(i));
    LookupAppend(a, feats, Feature(i));
    LookupUnique(feats, i);
  }

  /** Get on a feature's flag is "on" exactly when the flag holds that feature's bit. */
  lemma FeatureOn(f: Flag, i: FeatureIndex)
    ensures Get(f, Features[i].1) == "on" <==> HasFeature(f, i)
  {
    FeaturesAreSuccessiveBits();
    GetSingleBit(f, i as BitIndex);
  }

  /** Every feature's option is on exactly when the flag holds the feature's bit. */
  lemma FeatureReadBack(m: Machine, i: FeatureIndex)
    ensures Lookup(ModifyOptions(m), Feature(i)) == Some("on") <==> HasFeature(m.flag, i)
  {
    FeatureLookup(m, i);
    FeatureOn(m.flag, i);
  }

  /** The value `Modify` writes for the OS type and each of the three numbers. */
  lemma BasicReadBack(m: Machine, i: nat)
    requires i < 4
    ensures Lookup(ModifyOptions(m), BasicOptions(m)[i].0) == Some(BasicOptions(m)[i].1)
  {
    var basic := BasicOptions(m);
    var k := basic[i].0;
    var feats := FeatureOptions(m.flag);
    var boots := BootOptions(m.bootOrder);
    assert !k.Boot? && !k.Feature?;
    LookupSkip(BiosOptions + basic + feats, boots, k);
    LookupSkip(BiosOptions + basic, feats, k);
    LookupUnique(basic, i);
    LookupAppend(BiosOptions, basic, k);
  }

  /** Round trip: reading back the options `Modify` writes recovers the record's
      settings, for numbers that fit in 32 bits as the parser requires. */
  lemma ModifyReadBack(m: Machine)
    requires m.cpus <= MaxUint32 && m.memory <= MaxUint32 && m.vram <= MaxUint32
    ensures ReadBack(ModifyOptions(m)) == Ok(ConfigOf(m))
  {
    var opts := ModifyOptions(m);
    assert Lookup(opts, OsType).GetOr("") == m.osType by { BasicReadBack(m, 0); }
    assert ParseUint32(Lookup(opts, Cpus).GetOr("")) == Ok(m.cpus) by {
      BasicReadBack(m, 1);
      ParseFormatRoundTrip(m.cpus);
    }
    assert ParseUint32(Lookup(opts, Memory).GetOr("")) == Ok(m.memory) by {
      BasicReadBack(m, 2);
      ParseFormatRoundTrip(m.memory);
    }
    assert ParseUint32(Lookup(opts, Vram).GetOr("")) == Ok(m.vram) by {
      BasicReadBack(m, 3);
      ParseFormatRoundTrip(m.vram);
    }
    assert FeaturesOn(opts) == ConfigOf(m).features by {
      forall i: FeatureIndex
        ensures Lookup(opts, Feature(i)) == Some("on") <==> HasFeature(m.flag, i)
      {
        FeatureReadBack(m, i);
      }
    }
    assert BootsFrom(opts, 1) == KeptBoot(m.bootOrder) by { BootsReadBack(m, 1); }
    ReadBackFrom(opts, ConfigOf(m));
  }

  /** ReadBack gives c when each lookup gives c's part. */
  lemma ReadBackFrom(opts: seq<(Key, string)>, c: Config)
    requires Lookup(opts, OsType).GetOr("") == c.osType
    requires ParseUint32(Lookup(opts, Cpus).GetOr("")) == Ok(c.cpus)
    requires ParseUint32(Lookup(opts, Memory).GetOr("")) == Ok(c.memory)
    requires ParseUint32(Lookup(opts, Vram).GetOr("")) == Ok(c.vram)
    requires FeaturesOn(opts) == c.features
    requires BootsFrom(opts, 1) == c.boot
    ensures ReadBack(opts) == Ok(c)
  {
  }

  /** After a successful `Modify`, the record is whatever the refresh reported: the
      parser never fills the OS type, the flag or the boot order, so the settings just
      written are gone from the record. */
  lemma ModifyForgetsSettings(m: Machine, vbm: Executor, replies: seq<Reply>)
    requires Modify(m, vbm, replies).outcome.Pass?
    ensures var r := Modify(m, vbm, replies);
            r.trace == [Invoke(ModifyArgs(m)), ShowInfo(Identifier(m))]
            && r.machine.osType == "" && r.machine.flag == 0 && r.machine.bootOrder == []
            && r.replies == replies[1..]
  {
    GetMachineMeaning(replies[0]);
  }
}
